=== FILE: README.md ===
# Geospatial store: a Dafny model

This project models the core of a small replicated store for GeoJSON
features. The store has three stages.

- **practice2**, the main stage. An `Engine` owns a table of features keyed
  by string id, a spatial index over their bounding boxes, a sequence counter
  (LSN), a vector clock and a leader flag. Commands are insert, replace,
  delete, search and checkpoint. A successful mutation on the leader is
  appended to a transaction log. Replicated and replayed transactions go
  through one idempotent apply rule, keyed by the vector clock. Start-up loads
  the JSON checkpoint and then replays the log.
- **practice1**, the earlier stage. A feature collection kept in one file:
  insert appends, and replace/delete act on the first feature with the same id.
- **practice0**, the first exercise. `filler` writes two bytes alternately
  into a slice.

The model is purely functional. The engine is an immutable datatype, and
every handler is a function from an engine to a `Step`, which is the new
engine plus the reply. Whatever the outside world decides is a parameter:
- whether appending to the log succeeds;
- the outcome of each step of a checkpoint;
- the order in which Go iterates over a map when it indexes a loaded checkpoint.

The spatial index is a sequence of (rectangle, feature) entries, and its
contracts speak of the multiset of entries. Insert adds one entry. Delete
removes one entry equal to the given one, if there is one. Search returns
the features of the entries whose rectangle intersects the query. Nothing
assumes that a key has only one entry: the engine does not keep that
invariant everywhere. The `Consistency` module states exactly which
operations keep it and which break it.

Modules:
- `Geo`: points, geometries, rectangles, feature ids and bounding boxes.
- `SpatialIndex`: the index as a bag of entries.
- `StorageEngine`: the engine state and the command handlers.
- `Consistency`: the table/index agreement invariant.
- `Recovery`: loading the checkpoint, replaying the log, and one node life (`Session`).
- `EngineProperties`: properties that relate several operations.
- `Scenarios`: worked runs on small inputs.
- `FeatureCollection`: practice1.
- `Filler`: practice0.

The model reproduces these behaviours of the code:
- Insert increments the LSN twice, so the first insert is logged with LSN 2.
- Inserting over an existing id stores the new feature but leaves the old
  index entry in place.
- A replicated or replayed replace is applied like an insert: the old entry
  is not removed.
- Local commands never update the vector clock.
- Recovery never restores the LSN, so it restarts at 0.
- A delete of an id that is not stored is written to the log before the
  handler answers NotFound.
- Replay stops at the first line that does not decode. Later lines are never
  applied.
- Search reports a feature once per matching index entry, so a feature
  inserted twice is reported twice.
- If a checkpoint writes its snapshot but fails to remove the log, the next
  restart applies a second time every logged write of the leader whose LSN is
  above the snapshot clock's entry for the leader. Local writes enter the
  clock only when a later start-up replays them, so on a leader that has
  never replayed its own log this is every one of its logged writes.

## Model

| member | source | states |
|---|---|---|
| Geo.BBox | practice2/main.go:430-437 | The bounding box covers every vertex of the geometry, and each of its four sides is attained by some vertex. |
| Geo.BoundOf | practice2/main.go:430-437 | The tight bound of a non-empty point list: it covers every point, and every side is attained. |
| SpatialIndex.Insert | practice2/main.go:78-79 | Inserting into the index adds exactly one entry to its bag. |
| SpatialIndex.RemoveFirst | practice2/main.go:89-90 | Removes one occurrence of the entry: the bag loses exactly that entry, the length drops by one if the entry was present, and nothing changes otherwise. |
| SpatialIndex.Delete | practice2/main.go:89-90 | Deleting from the index removes one matching entry from the bag, and is a no-op when none matches. |
| SpatialIndex.Hits | practice2/main.go:292-300 | Each entry occurs in the hits exactly as often as in the index when its rectangle meets the query, and not at all otherwise. |
| SpatialIndex.Search | practice2/main.go:292-300 | A feature is in the search result if and only if some index entry for it has a rectangle that intersects the query. Each feature occurs in the result exactly as many times as there are such entries, counted by an independent recursive count. |
| StorageEngine.ApplyTransaction | practice2/main.go:62-93 | A transaction whose LSN is at most the clock entry for its origin is ignored. Otherwise the clock takes its LSN. An insert/replace with a string id stores the feature and adds one entry. A delete of a stored string id removes the key and one entry for the stored feature. Anything else changes only the clock. The node's LSN, name, role and disk are never touched. |
| StorageEngine.HandleInsert | practice2/main.go:184-212 | A follower refuses with NotLeader and changes nothing. On the leader the LSN goes up by two, and the transaction carrying the new LSN is logged exactly when the append succeeds. The reply is Ok exactly when the append succeeds and the id is a string; then the feature is stored and one entry is added. On an error the table and index are unchanged. The clock is never touched. |
| StorageEngine.HandleReplace | practice2/main.go:214-248 | A follower refuses with NotLeader. On the leader the LSN goes up by one and is logged if the append succeeds. On success the old entry of a stored id is removed before the new one is added, so the bag is the old bag minus the old entry plus the new one. An absent id behaves as an insert. Errors are LogWriteFailed and IdNotString, and they leave the table and index unchanged. |
| StorageEngine.HandleDelete | practice2/main.go:250-282 | A follower refuses with NotLeader. On the leader the LSN goes up by one and the delete is logged if the append succeeds, even when the id is not stored. The reply is Ok exactly when the append succeeds and the string id is stored; then the key and its entry are removed. Otherwise the answer is LogWriteFailed, IdNotString or NotFound, with the table and index unchanged. |
| StorageEngine.HandleSearch | practice2/main.go:292-303 | Search changes nothing. It answers with exactly the features whose index entries intersect the query rectangle, each feature once per intersecting entry. |
| StorageEngine.Checkpoint | practice2/main.go:352-377 | The table, index, clock, counter and role are unchanged. The reply is Ok exactly when every step succeeds. The snapshot {data, vclock} is on disk whenever encoding succeeded. A failed encode leaves a truncated, unreadable file, so the previous snapshot is lost. The log is emptied only on full success. A failed create changes nothing. |
| StorageEngine.Fresh | practice2/main.go:485-497 | The constructor's engine stores and indexes nothing, has counter 0 and has seen no transaction; its name, role and disk are the given ones. Consistency.EmptyIsConsistent states that it is consistent. |
| StorageEngine.AppendLog | practice2/main.go:336-350 | A successful append adds the transaction as one new last line, keeps every earlier line and changes nothing else. Recovery.DecodedLines states that such lines decode back. |
| StorageEngine.HandleCommand | practice2/main.go:158-172 | Dispatch never changes the clock, name or role, and never lowers the LSN. On a follower only a checkpoint changes anything, and it touches only the disk. An unknown action is answered with UnknownCommand and changes nothing. |
| Recovery.IndexAll | practice2/main.go:399-402 | Indexing the listed keys adds to the bag exactly one entry for the feature under each listed key, and nothing else. So every listed feature's entry is present and the length grows by the number of keys. |
| Recovery.LoadCheckpoint | practice2/main.go:379-405 | A stored checkpoint replaces the table and clock with the snapshot's. It adds to the index exactly one entry for each snapshot feature and nothing else. A missing or damaged checkpoint leaves the engine unchanged. The LSN is never restored. |
| Recovery.Decoded | practice2/main.go:407-427 | Replay reads the log up to the first line that fails to decode: the decoded transactions are a prefix of the log, and the next line, if any, is garbled. |
| Recovery.ApplyAll | practice2/main.go:417-425 | After applying a transaction list in order, every transaction in it is seen by the clock and no clock entry has gone down. Only the senders of the list gain or change an entry: every other node keeps its entry or its absence, and a changed entry holds an LSN of a transaction from that node. So each entry ends at the largest LSN known for its node. The node identity and disk are unchanged. |
| Recovery.Replay | practice2/main.go:407-427 | Replaying the log leaves every decoded transaction seen by the clock, lowers no clock entry, changes the clock only at the senders of the decoded transactions and only to their LSNs, keeps the node identity and disk, and changes nothing when every decoded transaction was already seen. |
| Recovery.Session | practice2/main.go:122-145 | One life of a node logs only its own transactions. An orderly stop whose checkpoint succeeds leaves an empty log and a snapshot whose clock is the clock reached at start-up, because the session's commands add nothing to it. A checkpoint that fails in encoding leaves a damaged file. |
| Recovery.Recover | practice2/main.go:122-130 | Start-up keeps the LSN at 0 whatever the log and checkpoint hold, and every decoded log transaction is seen by the recovered clock. |
| Recovery.ApplyIdempotent | practice2/main.go:63-67 | Applying the same transaction twice is the same as applying it once. |
| Recovery.ApplyAllSeen | practice2/main.go:63-67 | Applying transactions that the clock has already seen leaves the engine unchanged. |
| Recovery.ReplayTwiceIsReplayOnce | practice2/main.go:407-427 | Replaying a log a second time over the result of the first replay changes nothing, because every replayed transaction is then in the clock. |
| Recovery.ApplyAllSplit | practice2/main.go:417-425 | Applying p followed by q is applying q to the result of applying p. |
| Recovery.ApplyAllProjection | practice2/main.go:62-93 | The table and clock after applying a list depend only on the table and clock before, not on the index or other state. |
| Recovery.DecodedLines | practice2/main.go:336-350 | A log of well-formed lines decodes back to exactly the transactions that were appended. |
| Recovery.IndexAllConsistent | practice2/main.go:399-402 | Indexing a keyed table from an empty index, one key at a time in any enumeration order, gives a consistent index. |
| Recovery.RecoverAfterCheckpoint | practice2/main.go:352-405 | A successful checkpoint followed by a restart empties the log and reproduces the table and clock, with the LSN back at 0. A keyed table comes back with a consistent index. |
| Recovery.RecoverFromLogOnly | practice2/main.go:122-130 | With no checkpoint, recovery is the whole log applied to an empty engine. |
| Recovery.RecoverFromSnapshot | practice2/main.go:122-130 | With a checkpoint, recovery is the log applied to the snapshot's table and clock. |
| Recovery.CheckpointMidwayMatchesFullReplay | practice2/main.go:352-427 | Checkpointing after a prefix of the log and recovering from that checkpoint plus the rest of the log yields the same table and clock as replaying the whole log. |
| Consistency.EmptyIsConsistent | practice2/main.go:483-497 | A freshly constructed engine (empty table, empty index) is consistent. |
| Consistency.InsertFreshKeepsConsistent | practice2/main.go:208-210 | Storing a feature under a new key together with its one entry keeps the table and index consistent. |
| Consistency.RemoveKeepsConsistent | practice2/main.go:278-280 | Removing a stored key together with its entry keeps consistency. |
| Consistency.ReplaceKeepsConsistent | practice2/main.go:237-246 | Deleting the old entry before adding the new one keeps consistency. |
| Consistency.StoreOverExistingBreaksConsistency | practice2/main.go:77-79 | Adding an entry for a key that already holds a different feature, without removing the old entry, breaks consistency. |
| Consistency.ConsistentIndexIsUnique | practice2/main.go:399-402 | Two consistent indexes of one table hold the same bag of entries. |
| EngineProperties.InsertOfNewIdKeepsConsistency | practice2/main.go:184-212 | An insert of an id that is not stored keeps the engine consistent. |
| EngineProperties.InsertOverExistingIdLeavesStaleEntry | practice2/main.go:203-210 | An insert over a stored id that holds a different, already indexed feature keeps that feature's entry in the index, so the table and the index no longer agree. |
| EngineProperties.ReplaceKeepsConsistency | practice2/main.go:214-248 | Replace on the leader keeps the engine consistent. |
| EngineProperties.DeleteKeepsConsistency | practice2/main.go:250-282 | Delete on the leader keeps the engine consistent. |
| EngineProperties.ReplicatedReplaceLeavesStaleEntry | practice2/main.go:72-79 | A replicated replace of a stored id keeps the replaced feature's entry in the index and breaks consistency. |
| EngineProperties.ConsistentUpToBag | practice2/main.go:78-90 | Consistency depends only on the bag of index entries, not on their order. |
| EngineProperties.FollowerApplyMatchesLeader | practice2/main.go:184-282 | A successful mutation logs one transaction with the leader's name, the new LSN and the feature. A follower with the same table that has not seen it reaches the leader's table by applying it. |
| StorageEngine.RunCommands | practice2/main.go:132-143 | The command loop: no queue of local commands changes the vector clock, the node's name or its role, and every line the queue leaves in the log was there before or is a transaction of this node. |
| EngineProperties.CommandsNeverLowerLsn | practice2/main.go:158-182 | No queue of local commands lowers the LSN. |
| EngineProperties.FollowerQueueChangesNoData | practice2/main.go:158-182 | On a follower no queue of commands changes the table, index or LSN, and the log is either untouched or emptied by a checkpoint. |
| Scenarios.InsertedPointIsFound | practice2/main_test.go:54-112 | After one insert into a fresh leader, a query reports the feature exactly when it meets the feature's bounding box; the select test's point (1,1) and query (0,0)-(2,2) are one instance. |
| Scenarios.ReplaceMovesPoint | practice2/main_test.go:118-175 | After an insert and a replace on the leader, a query reports the new feature exactly when it meets the new bounding box, and never reports the old feature. |
| Scenarios.ReplicatedReplaceKeepsOldPoint | practice2/main.go:72-79 | An insert followed by a replace that moves the feature out of a query area, both arriving at a follower, leave the table holding the new feature while the query still reports the old one. |
| Scenarios.InsertCheckpointRestart | practice2/main.go:352-405 | Insert, checkpoint, restart: the log is empty, and the recovered node answers every query as it did before. |
| Scenarios.InsertCrashRestart | practice2/main.go:407-427 | Insert then crash without a checkpoint: the log holds the insert with LSN 2, and the recovered node answers every query as the leader did. |
| Scenarios.DuplicateDeliveryAppliedOnce | practice2/main.go:63-67 | A transaction delivered twice leaves one copy in the table, one index entry, and the clock at its LSN. |
| Scenarios.DeleteOfMissingIdIsLogged | practice2/main.go:255-277 | A delete of an unstored id answers NotFound and leaves the table and index unchanged, yet it has been logged. |
| Scenarios.RestartReusesLsnAndLosesInsert | practice2/main.go:62-67 | A leader restarted from its log reissues LSN 2, so a later restart skips the second insert and loses it. |
| Scenarios.InsertTwiceReportedTwice | practice2/main.go:292-300 | Inserting the same feature twice on a leader indexes it twice, and a query that meets it reports it twice. |
| Scenarios.CheckpointLeftLogReappliesInsert | practice2/main.go:352-377 | Insert, then a checkpoint whose log removal fails, then restart: the leader's insert is applied from the snapshot and again from the log. The index holds two entries for one stored feature, and the table and index disagree. |
| FeatureCollection.FirstMatch | practice1/main.go:77-82 | The scan stops at the first feature with an equal id, or reports that none matches. |
| FeatureCollection.InsertFeature | practice1/main.go:64-67 | Insert appends the feature and keeps every existing feature in place. |
| FeatureCollection.ReplaceFeature | practice1/main.go:77-82 | Only the first feature with the same id is overwritten, and all others stay. With no match the collection is unchanged. |
| FeatureCollection.DeleteFeature | practice1/main.go:94-99 | Only the first feature with the id is removed, and the rest keep their order. With no match the collection is unchanged. |
| FeatureCollection.DeleteRemovesOneOccurrence | practice1/main.go:94-99 | A delete removes exactly one feature with the id, namely the first: the count of the id drops by one, and later duplicates survive. |
| FeatureCollection.DeleteUndoesInsertOfNewId | practice1/main.go:64-99 | Deleting the id of a feature just inserted under a new id gives back the original collection. |
| FeatureCollection.ReplaceIdempotent | practice1/main.go:77-82 | Replacing twice with the same feature equals replacing once. |
| FeatureCollection.ReplaceKeepsIds | practice1/main.go:77-82 | Replace never changes the sequence of ids. |
| Filler.Fill | practice0/main.go:34-42 | Every even offset of the slice gets the first byte and every odd offset the second, and bytes outside the slice are untouched. |
| Filler.FillAll | practice0/main_test.go:8-19 | Filling a whole buffer writes the alternating pattern, and with two or more bytes both values occur in it. |
| Filler.FillTwice | practice0/main.go:34-42 | Filling a second time with the same bytes changes nothing. |
| Filler.FillHalves | practice0/main.go:9-23 | The two fillers on a 100-byte buffer give "0101…" over the first half and "XYXY…" over the second. |

## Left out

- Replication over the network is not modelled: connecting to replicas,
  broadcasting transactions and the WebSocket handler. A replicated
  transaction is an input to `ApplyTransaction`.
- The HTTP layer is not modelled: the router, the request handlers, the
  load-shedding redirect and its request counter, and the JSON request and
  response bodies.
- Concurrency is not modelled: the `Run` goroutine, the command channel and
  context cancellation. A node's life is the sequential `Session`, which
  runs commands in order.
- File contents and JSON encoding are not modelled. The log is a sequence of
  lines, each either a transaction or undecodable. The checkpoint file is
  missing, damaged or holds a snapshot. Each file operation's outcome is an
  input. One log append stands for open, encode and write together.
- StorageEngine.HandleInsert, StorageEngine.HandleReplace and
  StorageEngine.HandleDelete: a failed append leaves the log unchanged. In Go
  the write can fail part-way, for example on a full disk, and leave a
  fragment without a newline. The next successful append then continues that
  line, replay stops there with a decode error, and every later acknowledged
  transaction is lost on restart. The model never appends a `Garbled` line
  from a handler.
- Coordinates are integers, not floating point. The GeoJSON geometry types
  collapse to a non-empty list of vertices, and the R-tree is a bag of
  entries. Empty geometries are not modelled.
- Geo.BBox: every feature has at least one vertex. GeoJSON allows
  `"geometry": null`, which decodes to a nil geometry. The leader logs and
  stores such a feature and then crashes computing its bounding box. Every
  restart replays the logged line and crashes at the same place, so the node
  cannot start again until the log is edited by hand. The model cannot
  express a feature without a geometry.
- StorageEngine.HandleInsert: does not model the `uint64` wrap-around of
  the LSN, because the counter is unbounded here.
- StorageEngine.ApplyTransaction: does not model a transaction without a
  feature, which makes the Go code panic, and does not model the clock
  type's 64-bit bound.
- Recovery.LoadCheckpoint: does not model a checkpoint without a clock
  field, which leaves Go with a nil map that panics on the next write.
- All nodes in one process share the same checkpoint and log file names.
  The model gives each node its own disk.
- Recovery.DecodedLines: every appended line is modelled as readable back.
  Go's default line scanner stops at a line longer than 64 KiB, for example
  a large polygon. Replay would then end at that line, like a garbled line,
  but the model's log append never produces such a line.
- SpatialIndex.Search: the order of the answer is not promised, only how many
  times each feature occurs. The R-tree's traversal order is not modelled.
- The practice0 goroutines, sleep and printing are left out. The two fills
  are modelled one after the other, which is the state after each has run
  once.
- practice1 file reads and writes and its ignored decode errors are left
  out. The collection is passed in and returned.

=== FILE: consistency.dfy ===
/** Index/table consistency: every stored feature has exactly one index entry,
    at the bounding box of its current geometry, and the index holds nothing
    else. The engine does not maintain this everywhere (insert over an existing
    id and replicated replace add an entry without removing the old one); the
    lemmas here say which operations keep it. */
module Consistency {
  import opened Geo
  import opened SpatialIndex

  /** Every feature is stored under its own string id. */
  predicate WellKeyed(data: map<string, Feature>)
  {
    forall k | k in data :: data[k].id == StrId(k)
  }

  /** `e` is the entry of the feature stored under `e`'s id. */
  predicate Indexed(data: map<string, Feature>, e: Entry)
  {
    e.feature.id.StrId? && e.feature.id.s in data && e == EntryFor(data[e.feature.id.s])
  }

  predicate Consistent(data: map<string, Feature>, idx: Index)
  {
    && WellKeyed(data)
    && (forall k | k in data :: multiset(idx.entries)[EntryFor(data[k])] == 1)
    && (forall e | e in idx.entries :: Indexed(data, e))
  }

  lemma EmptyIsConsistent()
    ensures Consistent(map[], Empty)
  {
  }

  /** Storing a feature under a fresh key, with one new entry, keeps consistency. */
  lemma InsertFreshKeepsConsistent(data: map<string, Feature>, idx: Index, f: Feature)
    requires Consistent(data, idx)
    requires f.id.StrId? && f.id.s !in data
    ensures Consistent(data[f.id.s := f], Insert(idx, EntryFor(f)))
  {
    var k := f.id.s;
    var data' := data[k := f];
    var idx' := Insert(idx, EntryFor(f));
    assert EntryFor(f) !in idx.entries;
    forall k2 | k2 in data'
      ensures multiset(idx'.entries)[EntryFor(data'[k2])] == 1
    {
      if k2 != k {
        assert EntryFor(data[k2]) != EntryFor(f);
      }
    }
    forall e | e in idx'.entries
      ensures Indexed(data', e)
    {
      if e != EntryFor(f) {
        assert e in multiset(idx'.entries);
        assert e in idx.entries;
        assert Indexed(data, e);
      }
    }
  }

  /** Removing a stored key together with its entry keeps consistency. */
  lemma RemoveKeepsConsistent(data: map<string, Feature>, idx: Index, k: string)
    requires Consistent(data, idx)
    requires k in data
    ensures Consistent(data - {k}, Delete(idx, EntryFor(data[k])))
  {
    var gone := EntryFor(data[k]);
    var data' := data - {k};
    var idx' := Delete(idx, gone);
    assert multiset(idx'.entries)[gone] == 0;
    forall k2 | k2 in data'
      ensures multiset(idx'.entries)[EntryFor(data'[k2])] == 1
    {
      assert EntryFor(data[k2]) != gone;
    }
    forall e | e in idx'.entries
      ensures Indexed(data', e)
    {
      assert e in multiset(idx'.entries);
      assert e in idx.entries;
      assert Indexed(data, e);
      assert e.feature.id.s != k;
    }
  }

  /** Replacing a stored feature by deleting the old entry first keeps consistency. */
  lemma ReplaceKeepsConsistent(data: map<string, Feature>, idx: Index, f: Feature)
    requires Consistent(data, idx)
    requires f.id.StrId?
    ensures var k := f.id.s;
      var cleared := if k in data then Delete(idx, EntryFor(data[k])) else idx;
      Consistent(data[k := f], Insert(cleared, EntryFor(f)))
  {
    var k := f.id.s;
    if k in data {
      var rest := data - {k};
      var cleared := Delete(idx, EntryFor(data[k]));
      RemoveKeepsConsistent(data, idx, k);
      InsertFreshKeepsConsistent(rest, cleared, f);
      RemoveThenStore(data, k, f);
    } else {
      InsertFreshKeepsConsistent(data, idx, f);
    }
  }

  lemma RemoveThenStore(data: map<string, Feature>, k: string, f: Feature)
    ensures (data - {k})[k := f] == data[k := f]
  {
  }

  /** Adding an entry for a key that already holds a different feature, without
      removing the old entry, breaks consistency: the old entry stays behind. */
  lemma StoreOverExistingBreaksConsistency(data: map<string, Feature>, idx: Index, f: Feature)
    requires Consistent(data, idx)
    requires f.id.StrId? && f.id.s in data && data[f.id.s] != f
    ensures !Consistent(data[f.id.s := f], Insert(idx, EntryFor(f)))
  {
    var k := f.id.s;
    var stale := EntryFor(data[k]);
    assert multiset(idx.entries)[stale] == 1;
    assert stale in Insert(idx, EntryFor(f)).entries;
    assert !Indexed(data[k := f], stale);
  }

  /** Two consistent indexes of the same table hold the same bag of entries. */
  lemma ConsistentIndexIsUnique(data: map<string, Feature>, a: Index, b: Index)
    requires Consistent(data, a) && Consistent(data, b)
    ensures multiset(a.entries) == multiset(b.entries)
  {
    forall e
      ensures multiset(a.entries)[e] == multiset(b.entries)[e]
    {
      if e in a.entries {
        assert Indexed(data, e);
      } else if e in b.entries {
        assert Indexed(data, e);
      }
    }
  }
}

=== FILE: engine_properties.dfy ===
/** Properties of the engine that relate several operations: which commands
    keep the index in step with the table, agreement between a leader and a
    follower applying the leader's logged transaction, and what a whole queue of
    commands can and cannot change. */
module EngineProperties {
  import opened Geo
  import opened SpatialIndex
  import opened Consistency
  import opened StorageEngine

  /** An insert of a new id keeps the index in step with the table. */
  lemma InsertOfNewIdKeepsConsistency(s: Engine, f: Feature, appendOk: bool)
    requires Consistent(s.data, s.index)
    requires f.id.StrId? ==> f.id.s !in s.data
    ensures var r := HandleInsert(s, f, appendOk).engine;
      Consistent(r.data, r.index)
  {
    var r := HandleInsert(s, f, appendOk);
    if r.reply == Ok {
      InsertFreshKeepsConsistent(s.data, s.index, f);
      ConsistentUpToBag(r.engine.data, SpatialIndex.Insert(s.index, EntryFor(f)), r.engine.index);
    }
  }

  /** An insert over an id that holds a different feature leaves the old
      feature's entry in the index: the table and the index disagree. */
  lemma InsertOverExistingIdLeavesStaleEntry(s: Engine, f: Feature)
    requires s.leader
    requires f.id.StrId? && f.id.s in s.data && s.data[f.id.s] != f
    requires s.data[f.id.s].id == f.id && EntryFor(s.data[f.id.s]) in s.index.entries
    ensures var r := HandleInsert(s, f, true).engine;
      && EntryFor(s.data[f.id.s]) in r.index.entries
      && !Consistent(r.data, r.index)
  {
    var r := HandleInsert(s, f, true).engine;
    var stale := EntryFor(s.data[f.id.s]);
    assert stale in multiset(s.index.entries);
    assert stale in multiset(r.index.entries);
    assert !Indexed(r.data, stale);
  }

  /** Replace on the leader keeps the index in step with the table. */
  lemma ReplaceKeepsConsistency(s: Engine, f: Feature, appendOk: bool)
    requires Consistent(s.data, s.index)
    ensures var r := HandleReplace(s, f, appendOk).engine;
      Consistent(r.data, r.index)
  {
    var r := HandleReplace(s, f, appendOk);
    if r.reply == Ok {
      ReplaceKeepsConsistent(s.data, s.index, f);
      var k := f.id.s;
      var cleared := if k in s.data then SpatialIndex.Delete(s.index, EntryFor(s.data[k])) else s.index;
      ConsistentUpToBag(r.engine.data, SpatialIndex.Insert(cleared, EntryFor(f)), r.engine.index);
    }
  }

  /** Delete on the leader keeps the index in step with the table. */
  lemma DeleteKeepsConsistency(s: Engine, f: Feature, appendOk: bool)
    requires Consistent(s.data, s.index)
    ensures var r := HandleDelete(s, f, appendOk).engine;
      Consistent(r.data, r.index)
  {
    var r := HandleDelete(s, f, appendOk);
    if r.reply == Ok {
      RemoveKeepsConsistent(s.data, s.index, f.id.s);
      ConsistentUpToBag(r.engine.data, SpatialIndex.Delete(s.index, EntryFor(s.data[f.id.s])), r.engine.index);
    }
  }

  /** A replicated (or replayed) replace of a stored id is applied like an
      insert: the entry of the replaced feature stays in the index. */
  lemma ReplicatedReplaceLeavesStaleEntry(s: Engine, t: Transaction)
    requires Consistent(s.data, s.index)
    requires !Seen(s.vclock, t) && t.action == Replace
    requires t.feature.id.StrId? && t.feature.id.s in s.data && s.data[t.feature.id.s] != t.feature
    ensures var r := ApplyTransaction(s, t);
      && EntryFor(s.data[t.feature.id.s]) in r.index.entries
      && !Consistent(r.data, r.index)
  {
    var r := ApplyTransaction(s, t);
    StoreOverExistingBreaksConsistency(s.data, s.index, t.feature);
    ConsistentUpToBag(r.data, r.index, SpatialIndex.Insert(s.index, EntryFor(t.feature)));
    assert multiset(s.index.entries)[EntryFor(s.data[t.feature.id.s])] == 1;
    assert EntryFor(s.data[t.feature.id.s]) in multiset(r.index.entries);
  }

  /** Consistency only looks at the bag of entries. */
  lemma ConsistentUpToBag(data: map<string, Feature>, a: Index, b: Index)
    requires multiset(a.entries) == multiset(b.entries)
    ensures Consistent(data, a) <==> Consistent(data, b)
  {
    assert forall e :: e in a.entries <==> e in b.entries by {
      forall e ensures e in a.entries <==> e in b.entries {
        assert e in a.entries <==> e in multiset(a.entries);
        assert e in b.entries <==> e in multiset(b.entries);
      }
    }
  }

  /** A follower whose table matches the leader's before a successful local
      mutation, and which has not seen the logged transaction, ends with the
      leader's table once it applies that transaction. */
  lemma FollowerApplyMatchesLeader(s: Engine, cmd: Command, io: Io, follower: Engine)
    requires cmd.InsertCmd? || cmd.ReplaceCmd? || cmd.DeleteCmd?
    requires follower.data == s.data
    requires HandleCommand(s, cmd, io).reply == Ok
    ensures var r := HandleCommand(s, cmd, io).engine;
      var t := r.disk.log[|r.disk.log| - 1].txn;
      && |r.disk.log| == |s.disk.log| + 1
      && t.name == s.name && t.lsn == r.lsn && t.feature == cmd.feature
      && (!Seen(follower.vclock, t) ==> ApplyTransaction(follower, t).data == r.data)
  {
  }

  /** The sequence counter never goes down while the node serves commands. */
  lemma {:induction false} CommandsNeverLowerLsn(s: Engine, queue: seq<(Command, Io)>)
    ensures RunCommands(s, queue).lsn >= s.lsn
    decreases |queue|
  {
    if |queue| > 0 {
      CommandsNeverLowerLsn(HandleCommand(s, queue[0].0, queue[0].1).engine, queue[1..]);
    }
  }

  /** On a follower no queue of commands changes the table, the index or the
      counter, and the log can only be emptied by a checkpoint, never grown. */
  lemma {:induction false} FollowerQueueChangesNoData(s: Engine, queue: seq<(Command, Io)>)
    requires !s.leader
    ensures var r := RunCommands(s, queue);
      && r.data == s.data && r.index == s.index && r.lsn == s.lsn
      && (r.disk.log == s.disk.log || r.disk.log == [])
    decreases |queue|
  {
    if |queue| > 0 {
      FollowerQueueChangesNoData(HandleCommand(s, queue[0].0, queue[0].1).engine, queue[1..]);
    }
  }
}

=== FILE: feature_collection.dfy ===
/** The file-backed feature collection of the first storage version: insert
    appends, replace overwrites the first feature with the same id, delete
    removes the first feature with the same id. Identifiers are compared with
    plain equality, so features without an id match each other. */
module FeatureCollection {
  import opened Geo

  /** `i` is the position of the first feature in `c` whose id is `id`. */
  predicate IsFirstMatch(c: seq<Feature>, id: FeatureId, i: int)
  {
    0 <= i < |c| && c[i].id == id && forall j | 0 <= j < i :: c[j].id != id
  }

  predicate NoMatch(c: seq<Feature>, id: FeatureId)
  {
    forall j | 0 <= j < |c| :: c[j].id != id
  }

  /** The position the handlers' scan stops at, if any. */
  function FirstMatch(c: seq<Feature>, id: FeatureId): (r: Option<nat>)
    ensures r.Some? ==> IsFirstMatch(c, id, r.value)
    ensures r.None? ==> NoMatch(c, id)
  {
    if |c| == 0 then None
    else if c[0].id == id then Some(0)
    else
      match FirstMatch(c[1..], id)
      case None => None
      case Some(i) => Some(i + 1)
  }

  function CountId(c: seq<Feature>, id: FeatureId): nat
  {
    if |c| == 0 then 0 else (if c[0].id == id then 1 else 0) + CountId(c[1..], id)
  }

  /** Insert: the new feature goes at the end, whatever ids are already present. */
  function InsertFeature(c: seq<Feature>, f: Feature): (r: seq<Feature>)
    ensures |r| == |c| + 1 && r[|c|] == f
    ensures forall i | 0 <= i < |c| :: r[i] == c[i]
  {
    c + [f]
  }

  /** Replace: only the first feature with the same id is overwritten. */
  function ReplaceFeature(c: seq<Feature>, f: Feature): (r: seq<Feature>)
    ensures |r| == |c|
    ensures forall i | IsFirstMatch(c, f.id, i) ::
      r[i] == f && forall j | 0 <= j < |c| && j != i :: r[j] == c[j]
    ensures NoMatch(c, f.id) ==> r == c
  {
    match FirstMatch(c, f.id)
    case None => c
    case Some(i) => c[i := f]
  }

  /** Delete: only the first feature with the id is removed, and the others
      keep their relative order. */
  function DeleteFeature(c: seq<Feature>, id: FeatureId): (r: seq<Feature>)
    ensures forall i | IsFirstMatch(c, id, i) ::
      |r| == |c| - 1 && r[..i] == c[..i] && r[i..] == c[i + 1..]
    ensures NoMatch(c, id) ==> r == c
  {
    match FirstMatch(c, id)
    case None => c
    case Some(i) => c[..i] + c[i + 1..]
  }

  /* ---------------------------------------------------------------------- */

  lemma {:induction false} CountIdAppend(a: seq<Feature>, b: seq<Feature>, id: FeatureId)
    ensures CountId(a + b, id) == CountId(a, id) + CountId(b, id)
    decreases |a|
  {
    if |a| == 0 {
      assert a + b == b;
    } else {
      assert (a + b)[1..] == a[1..] + b;
      CountIdAppend(a[1..], b, id);
    }
  }

  /** A successful delete removes exactly one feature with the id: later
      duplicates of the id survive it. */
  lemma DeleteRemovesOneOccurrence(c: seq<Feature>, id: FeatureId)
    requires !NoMatch(c, id)
    ensures CountId(DeleteFeature(c, id), id) == CountId(c, id) - 1
    ensures |DeleteFeature(c, id)| == |c| - 1
    ensures multiset(DeleteFeature(c, id)) + multiset{FirstOf(c, id)} == multiset(c)
  {
    var i := FirstMatch(c, id).value;
    assert c == c[..i] + [c[i]] + c[i + 1..];
    CountIdAppend(c[..i] + [c[i]], c[i + 1..], id);
    CountIdAppend(c[..i], [c[i]], id);
    CountIdAppend(c[..i], c[i + 1..], id);
    assert CountId([c[i]], id) == 1;
  }

  /** The first feature in `c` with the id. */
  function FirstOf(c: seq<Feature>, id: FeatureId): Feature
    requires !NoMatch(c, id)
  {
    c[FirstMatch(c, id).value]
  }

  /** Deleting the id of a feature just inserted, when the id was not present
      before, gives back the original collection. */
  lemma DeleteUndoesInsertOfNewId(c: seq<Feature>, f: Feature)
    requires NoMatch(c, f.id)
    ensures DeleteFeature(InsertFeature(c, f), f.id) == c
  {
    var r := InsertFeature(c, f);
    assert IsFirstMatch(r, f.id, |c|);
    assert r[..|c|] == c;
  }

  /** Replacing twice with the same feature is the same as replacing once. */
  lemma ReplaceIdempotent(c: seq<Feature>, f: Feature)
    ensures ReplaceFeature(ReplaceFeature(c, f), f) == ReplaceFeature(c, f)
  {
    var r := ReplaceFeature(c, f);
    match FirstMatch(c, f.id)
    case None =>
    case Some(i) =>
      assert IsFirstMatch(r, f.id, i);
      var r2 := ReplaceFeature(r, f);
      assert forall j | 0 <= j < |r| :: r2[j] == r[j];
  }

  /** Replace never changes the sequence of ids, so the matching position
      itself is unchanged by it. */
  lemma ReplaceKeepsIds(c: seq<Feature>, f: Feature)
    ensures var r := ReplaceFeature(c, f);
      |r| == |c| && forall j | 0 <= j < |c| :: r[j].id == c[j].id
  {
  }
}

=== FILE: filler.dfy ===
/** The alternating byte fill of the first exercise: every even position of a
    slice gets one byte and every odd position the other. A Go slice shares
    its array with the caller, so the model takes the whole buffer together
    with the bounds of the slice and returns the buffer after the fill. */
module Filler {

  newtype byte = x: int | 0 <= x < 256

  /** The byte the fill writes at offset `i` of the slice. */
  function Expected(i: int, ifZero: byte, ifNot: byte): byte
  {
    if i % 2 == 0 then ifZero else ifNot
  }

  /** Fills `b[lo..hi]`; parity is counted from the start of the slice and the
      bytes outside it are left alone. */
  method Fill(b: seq<byte>, lo: nat, hi: nat, ifZero: byte, ifNot: byte) returns (r: seq<byte>)
    requires lo <= hi <= |b|
    ensures |r| == |b|
    ensures forall i | lo <= i < hi :: r[i] == Expected(i - lo, ifZero, ifNot)
    ensures r[..lo] == b[..lo] && r[hi..] == b[hi..]
  {
    r := b;
    var i := 0;
    while i < hi - lo
      invariant 0 <= i <= hi - lo
      invariant |r| == |b|
      invariant forall j | lo <= j < lo + i :: r[j] == Expected(j - lo, ifZero, ifNot)
      invariant forall j | 0 <= j < lo || lo + i <= j < |b| :: r[j] == b[j]
    {
      if i % 2 == 0 {
        r := r[lo + i := ifZero];
      } else {
        r := r[lo + i := ifNot];
      }
      i := i + 1;
    }
  }

  /** The fill over a whole buffer. With two or more bytes both values occur. */
  method FillAll(b: seq<byte>, ifZero: byte, ifNot: byte) returns (r: seq<byte>)
    ensures |r| == |b|
    ensures forall i | 0 <= i < |r| :: r[i] == Expected(i, ifZero, ifNot)
    ensures |b| >= 2 ==> ifZero in r && ifNot in r
  {
    r := Fill(b, 0, |b|, ifZero, ifNot);
    if |b| >= 2 {
      assert r[0] == ifZero && r[1] == ifNot;
    }
  }

  /** A second fill with the same bytes writes what is already there. */
  method FillTwice(b: seq<byte>, ifZero: byte, ifNot: byte) returns (once: seq<byte>, twice: seq<byte>)
    ensures twice == once
  {
    once := FillAll(b, ifZero, ifNot);
    twice := FillAll(once, ifZero, ifNot);
  }

  /** The program's two fillers on a 100-byte buffer, one after the other:
      "0101..." over the first half and "XYXY..." over the second. */
  method FillHalves(b: seq<byte>) returns (r: seq<byte>)
    requires |b| == 100
    ensures |r| == 100
    ensures forall i | 0 <= i < 50 :: r[i] == (if i % 2 == 0 then '0' as byte else '1' as byte)
    ensures forall i | 50 <= i < 100 :: r[i] == (if i % 2 == 0 then 'X' as byte else 'Y' as byte)
  {
    var first := Fill(b, 0, 50, '0' as byte, '1' as byte);
    r := Fill(first, 50, 100, 'X' as byte, 'Y' as byte);
    assert forall i | 0 <= i < 50 :: r[i] == r[..50][i] == first[..50][i];
  }
}

=== FILE: geo.dfy ===
/** Shared vocabulary of the storage engine: optional values, points, bounding
    rectangles and GeoJSON-like features.

    Coordinates are integers: the engine only ever compares them, so the
    float64 coordinates of the Go store are replaced by `int` without changing
    any decision the engine makes. */
module Geo {

  datatype Option<T> = None | Some(value: T)

  datatype Point = Point(x: int, y: int)

  /** The vertices of a point, line or polygon. A geometry always has at least
      one vertex; the bounding box of a geometry depends only on its vertices,
      so the kind of geometry is not recorded. For a polygon the vertices are
      those of its outer ring: orb bounds a polygon by its first ring only. */
  datatype Geometry = Geometry(first: Point, rest: seq<Point>)
  {
    function Vertices(): seq<Point>
    {
      [first] + rest
    }
  }

  /** An axis-aligned rectangle given by its lower-left and upper-right corner. */
  datatype Rect = Rect(min: Point, max: Point)

  /** The identifier of a decoded GeoJSON feature: a JSON string, a JSON
      integer or no identifier at all. Only string identifiers are usable as
      keys. Fractional and boolean identifiers are not represented. */
  datatype FeatureId = StrId(s: string) | NumId(n: int) | NoId

  datatype Feature = Feature(id: FeatureId, geometry: Geometry, properties: map<string, string>)

  predicate Covers(r: Rect, p: Point)
  {
    r.min.x <= p.x <= r.max.x && r.min.y <= p.y <= r.max.y
  }

  /** `r` is the smallest rectangle covering every point of `ps`: it covers
      them all and each of its four sides touches one of them. */
  predicate Tight(r: Rect, ps: seq<Point>)
  {
    && (forall i | 0 <= i < |ps| :: Covers(r, ps[i]))
    && (exists i | 0 <= i < |ps| :: ps[i].x == r.min.x)
    && (exists i | 0 <= i < |ps| :: ps[i].y == r.min.y)
    && (exists i | 0 <= i < |ps| :: ps[i].x == r.max.x)
    && (exists i | 0 <= i < |ps| :: ps[i].y == r.max.y)
  }

  function Min(a: int, b: int): int { if a <= b then a else b }

  function Max(a: int, b: int): int { if a <= b then b else a }

  /** The bounding box of a non-empty list of points, grown one point at a time. */
  function BoundOf(ps: seq<Point>): (r: Rect)
    requires |ps| > 0
    ensures Tight(r, ps)
  {
    if |ps| == 1 then Rect(ps[0], ps[0])
    else
      var b := BoundOf(ps[..|ps| - 1]);
      var p := ps[|ps| - 1];
      var r := Rect(Point(Min(b.min.x, p.x), Min(b.min.y, p.y)), Point(Max(b.max.x, p.x), Max(b.max.y, p.y)));
      assert forall i | 0 <= i < |ps| - 1 :: ps[..|ps| - 1][i] == ps[i];
      r
  }

  /** The bounding box of a geometry, the key under which a feature is indexed. */
  function BBox(g: Geometry): (r: Rect)
    ensures Tight(r, g.Vertices())
  {
    BoundOf(g.Vertices())
  }

  /** Rectangle intersection as the R-tree tests it: closed intervals on both
      axes, with no normalisation of an inverted query rectangle. */
  predicate Intersects(a: Rect, b: Rect)
  {
    !(b.min.x > a.max.x || b.max.x < a.min.x) && !(b.min.y > a.max.y || b.max.y < a.min.y)
  }
}

=== FILE: recovery.dfy ===
/** Start-up recovery: load the checkpoint if there is one, then replay the
    log through the same idempotent apply rule that replication uses. */
module Recovery {
  import opened Geo
  import opened SpatialIndex
  import opened Consistency
  import opened StorageEngine

  /** `order` lists every key of `keys` exactly once. Go's map iteration order
      is unspecified, so the order in which the checkpoint's features are
      indexed is an input. */
  predicate Enumerates(order: seq<string>, keys: set<string>)
  {
    && (forall i, j | 0 <= i < j < |order| :: order[i] != order[j])
    && (forall i | 0 <= i < |order| :: order[i] in keys)
    && (forall k | k in keys :: k in order)
  }

  /** The bag holding one entry for the feature stored under each listed key. */
  function EntriesOf(data: map<string, Feature>, order: seq<string>): multiset<Entry>
    requires forall i | 0 <= i < |order| :: order[i] in data
    decreases |order|
  {
    if |order| == 0 then multiset{}
    else multiset{EntryFor(data[order[0]])} + EntriesOf(data, order[1..])
  }

  /** The bag holds one entry per listed key, and the entry of every listed key. */
  lemma {:induction false} EntriesOfListed(data: map<string, Feature>, order: seq<string>)
    requires forall i | 0 <= i < |order| :: order[i] in data
    ensures |EntriesOf(data, order)| == |order|
    ensures forall i | 0 <= i < |order| :: EntryFor(data[order[i]]) in EntriesOf(data, order)
    decreases |order|
  {
    if |order| > 0 {
      var rest := order[1..];
      assert forall i | 0 <= i < |rest| :: rest[i] in data;
      EntriesOfListed(data, rest);
      var bag := EntriesOf(data, order);
      assert bag == multiset{EntryFor(data[order[0]])} + EntriesOf(data, rest);
      forall i | 0 <= i < |order|
        ensures EntryFor(data[order[i]]) in bag
      {
        if i > 0 {
          assert order[i] == rest[i - 1];
        }
      }
    }
  }

  /** One step of `IndexAll`: what indexing the rest of the list after the
      first key gives, in terms of the whole list. */
  lemma IndexAllStep(idx: Index, data: map<string, Feature>, order: seq<string>, r: Index)
    requires |order| > 0 && forall i | 0 <= i < |order| :: order[i] in data
    requires multiset(r.entries) == multiset(SpatialIndex.Insert(idx, EntryFor(data[order[0]])).entries) + EntriesOf(data, order[1..])
    requires |r.entries| == |idx.entries| + 1 + |order[1..]|
    ensures multiset(r.entries) == multiset(idx.entries) + EntriesOf(data, order)
    ensures multiset(idx.entries) <= multiset(r.entries)
    ensures forall i | 0 <= i < |order| :: EntryFor(data[order[i]]) in r.entries
    ensures |r.entries| == |idx.entries| + |order|
  {
    EntriesOfListed(data, order);
    forall i | 0 <= i < |order|
      ensures EntryFor(data[order[i]]) in r.entries
    {
      assert EntryFor(data[order[i]]) in multiset(r.entries);
    }
  }

  /** Indexes the features stored under the listed keys, one entry each, in list order. */
  function IndexAll(idx: Index, data: map<string, Feature>, order: seq<string>): (r: Index)
    requires forall i | 0 <= i < |order| :: order[i] in data
    ensures multiset(r.entries) == multiset(idx.entries) + EntriesOf(data, order)
    ensures multiset(idx.entries) <= multiset(r.entries)
    ensures forall i | 0 <= i < |order| :: EntryFor(data[order[i]]) in r.entries
    ensures |r.entries| == |idx.entries| + |order|
    decreases |order|
  {
    if |order| == 0 then idx
    else
      var rest := order[1..];
      assert forall i | 0 <= i < |rest| :: rest[i] in data;
      var next := SpatialIndex.Insert(idx, EntryFor(data[order[0]]));
      var r := IndexAll(next, data, rest);
      IndexAllStep(idx, data, order, r);
      r
  }

  /** Loading the checkpoint replaces the table and the vector clock with the
      snapshot's and adds exactly one index entry per snapshot feature; a missing or unreadable
      checkpoint leaves the engine as it was. The sequence counter is not
      restored. */
  function LoadCheckpoint(s: Engine, order: seq<string>): (r: Engine)
    requires s.disk.checkpoint.Stored? ==> Enumerates(order, s.disk.checkpoint.snapshot.data.Keys)
    ensures SameNode(r, s)
    ensures !s.disk.checkpoint.Stored? ==> r == s
    ensures s.disk.checkpoint.Stored? ==>
      r.data == s.disk.checkpoint.snapshot.data && r.vclock == s.disk.checkpoint.snapshot.vclock
    ensures s.disk.checkpoint.Stored? ==>
      forall k | k in r.data :: EntryFor(r.data[k]) in r.index.entries
    ensures s.disk.checkpoint.Stored? ==>
      multiset(r.index.entries) == multiset(s.index.entries) + EntriesOf(r.data, order)
    ensures multiset(s.index.entries) <= multiset(r.index.entries)
  {
    match s.disk.checkpoint
    case Stored(snap) =>
      var r := s.(data := snap.data, vclock := snap.vclock, index := IndexAll(s.index, snap.data, order));
      assert forall k | k in snap.data :: exists i :: 0 <= i < |order| && order[i] == k;
      r
    case _ => s
  }

  /** The transactions of the log up to its first undecodable line: replay
      stops at the first line it cannot decode. */
  function Decoded(lines: seq<LogLine>): (r: seq<Transaction>)
    ensures |r| <= |lines|
    ensures forall i | 0 <= i < |r| :: lines[i] == Line(r[i])
    ensures |r| < |lines| ==> lines[|r|] == Garbled
  {
    if |lines| == 0 || lines[0].Garbled? then []
    else [lines[0].txn] + Decoded(lines[1..])
  }

  function Lines(ts: seq<Transaction>): (r: seq<LogLine>)
    ensures |r| == |ts|
    ensures forall i | 0 <= i < |ts| :: r[i] == Line(ts[i])
  {
    if |ts| == 0 then [] else [Line(ts[0])] + Lines(ts[1..])
  }

  /** Some transaction of `ts` comes from node `n`. */
  predicate Sends(ts: seq<Transaction>, n: string)
  {
    exists i | 0 <= i < |ts| :: ts[i].name == n
  }

  /** The clock `after` differs from `before` only where `ts` says so: it has an
      entry exactly for the nodes of `before` and the senders in `ts`, and each
      entry is either the old one or the LSN of a transaction of that node. */
  ghost predicate ClockOnlyFrom(before: map<string, nat>, after: map<string, nat>, ts: seq<Transaction>)
  {
    && (forall n :: n in after <==> n in before || Sends(ts, n))
    && (forall n | n in after ::
          || (n in before && after[n] == before[n])
          || exists i | 0 <= i < |ts| :: ts[i].name == n && ts[i].lsn == after[n])
  }

  /** Applies transactions in order. Afterwards every one of them counts as
      seen, no clock entry has gone down, and the clock has changed only at
      the senders of the list, each to an LSN the list carries. */
  function ApplyAll(s: Engine, ts: seq<Transaction>): (r: Engine)
    ensures SameNode(r, s)
    ensures forall n | n in s.vclock :: n in r.vclock && s.vclock[n] <= r.vclock[n]
    ensures forall i | 0 <= i < |ts| :: Seen(r.vclock, ts[i])
    ensures ClockOnlyFrom(s.vclock, r.vclock, ts)
    decreases |ts|
  {
    if |ts| == 0 then s
    else
      var first := ApplyTransaction(s, ts[0]);
      var r := ApplyAll(first, ts[1..]);
      ApplyAllStep(s, first, r, ts);
      ClockStep(s.vclock, first.vclock, r.vclock, ts);
      r
  }

  /** The clock frame of one step of `ApplyAll`, lifted to the whole list. */
  lemma ClockStep(c0: map<string, nat>, c1: map<string, nat>, c2: map<string, nat>, ts: seq<Transaction>)
    requires |ts| > 0
    requires c1 == c0[ts[0].name := ts[0].lsn] || (ts[0].name in c0 && c1 == c0)
    requires ClockOnlyFrom(c1, c2, ts[1..])
    ensures ClockOnlyFrom(c0, c2, ts)
  {
    forall n
      ensures n in c2 <==> n in c0 || Sends(ts, n)
    {
      SendsCons(ts, n);
    }
    forall n | n in c2
      ensures || (n in c0 && c2[n] == c0[n])
              || exists i | 0 <= i < |ts| :: ts[i].name == n && ts[i].lsn == c2[n]
    {
      if n in c1 && c2[n] == c1[n] {
        if n == ts[0].name && c1 != c0 {
          assert ts[0].name == n && ts[0].lsn == c2[n];
        }
      } else {
        var j :| 0 <= j < |ts[1..]| && ts[1..][j].name == n && ts[1..][j].lsn == c2[n];
        assert ts[j + 1].name == n && ts[j + 1].lsn == c2[n];
      }
    }
  }

  /** A node sends in a non-empty list when it sends its first transaction or
      one of the rest. */
  lemma SendsCons(ts: seq<Transaction>, n: string)
    requires |ts| > 0
    ensures Sends(ts, n) <==> ts[0].name == n || Sends(ts[1..], n)
  {
    if Sends(ts[1..], n) {
      var j :| 0 <= j < |ts[1..]| && ts[1..][j].name == n;
      assert ts[j + 1].name == n;
    }
    if Sends(ts, n) && ts[0].name != n {
      var j :| 0 <= j < |ts| && ts[j].name == n;
      assert ts[1..][j - 1].name == n;
    }
  }

  /** One step of `ApplyAll`: the facts about the rest of the list after the
      first transaction, lifted to the whole list. */
  lemma ApplyAllStep(s: Engine, first: Engine, r: Engine, ts: seq<Transaction>)
    requires |ts| > 0 && first == ApplyTransaction(s, ts[0])
    requires SameNode(r, first)
    requires forall n | n in first.vclock :: n in r.vclock && first.vclock[n] <= r.vclock[n]
    requires forall i | 0 <= i < |ts[1..]| :: Seen(r.vclock, ts[1..][i])
    ensures SameNode(r, s)
    ensures forall n | n in s.vclock :: n in r.vclock && s.vclock[n] <= r.vclock[n]
    ensures forall i | 0 <= i < |ts| :: Seen(r.vclock, ts[i])
  {
    forall i | 1 <= i < |ts|
      ensures Seen(r.vclock, ts[i])
    {
      assert ts[i] == ts[1..][i - 1];
    }
  }

  /** Replays the log over the engine: every decoded transaction is seen
      afterwards, no clock entry goes down, and a log whose transactions are
      all seen already changes nothing. */
  function Replay(s: Engine, lines: seq<LogLine>): (r: Engine)
    ensures SameNode(r, s)
    ensures forall n | n in s.vclock :: n in r.vclock && s.vclock[n] <= r.vclock[n]
    ensures forall i | 0 <= i < |Decoded(lines)| :: Seen(r.vclock, Decoded(lines)[i])
    ensures (forall i | 0 <= i < |Decoded(lines)| :: Seen(s.vclock, Decoded(lines)[i])) ==> r == s
    ensures ClockOnlyFrom(s.vclock, r.vclock, Decoded(lines))
  {
    var ts := Decoded(lines);
    if forall i | 0 <= i < |ts| :: Seen(s.vclock, ts[i]) then
      ApplyAllSeen(s, ts);
      ApplyAll(s, ts)
    else
      ApplyAll(s, ts)
  }

  /** Start-up: a freshly constructed engine loads the checkpoint and replays
      the log. The sequence counter stays at zero whatever the log holds. */
  function Recover(name: string, leader: bool, disk: Disk, order: seq<string>): (r: Engine)
    requires disk.checkpoint.Stored? ==> Enumerates(order, disk.checkpoint.snapshot.data.Keys)
    ensures r.lsn == 0 && r.name == name && r.leader == leader && r.disk == disk
    ensures forall i | 0 <= i < |Decoded(disk.log)| :: Seen(r.vclock, Decoded(disk.log)[i])
  {
    Replay(LoadCheckpoint(Fresh(name, leader, disk), order), disk.log)
  }

  /** One life of a node: recover, serve a queue of commands, and on an orderly
      stop (`shutdown` present) write a final checkpoint. Returns what is left
      on disk; a crash is a stop without the final checkpoint. */
  function Session(name: string, leader: bool, disk: Disk, order: seq<string>,
                   queue: seq<(Command, Io)>, shutdown: Option<CheckpointIo>): (r: Disk)
    requires disk.checkpoint.Stored? ==> Enumerates(order, disk.checkpoint.snapshot.data.Keys)
    ensures OnlyOwnAppended(disk.log, r.log, name)
    ensures shutdown == Some(Succeeds) ==>
      && r.log == []
      && r.checkpoint.Stored?
      && r.checkpoint.snapshot.vclock == Recover(name, leader, disk, order).vclock
    ensures shutdown == Some(EncodeFails) ==> r.checkpoint == Damaged
  {
    var e := RunCommands(Recover(name, leader, disk, order), queue);
    match shutdown
    case None => e.disk
    case Some(io) => Checkpoint(e, io).engine.disk
  }

  /* ---------------------------------------------------------------------- */

  /** Applying a transaction twice is the same as applying it once. */
  lemma ApplyIdempotent(s: Engine, t: Transaction)
    ensures ApplyTransaction(ApplyTransaction(s, t), t) == ApplyTransaction(s, t)
  {
  }

  /** Transactions that are all already seen change nothing. */
  lemma {:induction false} ApplyAllSeen(s: Engine, ts: seq<Transaction>)
    requires forall i | 0 <= i < |ts| :: Seen(s.vclock, ts[i])
    ensures ApplyAll(s, ts) == s
    decreases |ts|
  {
    if |ts| > 0 {
      assert ApplyTransaction(s, ts[0]) == s;
      assert forall i | 1 <= i < |ts| :: ts[1..][i - 1] == ts[i];
      ApplyAllSeen(s, ts[1..]);
    }
  }

  /** Replaying a log a second time over its own result changes nothing: every
      transaction is then seen by the clock. This covers only transactions
      that entered the clock. Local commands never advance it: a leader's
      own write enters its clock only when the leader replays it at a later
      start-up. So a snapshot marks as applied only the leader's writes up to
      the LSN it has replayed, and a log left beside the snapshot re-applies
      the ones above it — on a leader that has never replayed its own log,
      all of them (see `Scenarios.CheckpointLeftLogReappliesInsert`). */
  lemma ReplayTwiceIsReplayOnce(s: Engine, ts: seq<Transaction>)
    ensures ApplyAll(ApplyAll(s, ts), ts) == ApplyAll(s, ts)
  {
    ApplyAllSeen(ApplyAll(s, ts), ts);
  }

  lemma {:induction false} ApplyAllSplit(s: Engine, p: seq<Transaction>, q: seq<Transaction>)
    ensures ApplyAll(s, p + q) == ApplyAll(ApplyAll(s, p), q)
    decreases |p|
  {
    if |p| > 0 {
      assert (p + q)[0] == p[0];
      assert (p + q)[1..] == p[1..] + q;
      ApplyAllSplit(ApplyTransaction(s, p[0]), p[1..], q);
    } else {
      assert p + q == q;
    }
  }

  /** The table and the clock after applying transactions depend only on the
      table and the clock before: the index, the counter and the files play no part. */
  lemma {:induction false} ApplyAllProjection(a: Engine, b: Engine, ts: seq<Transaction>)
    requires a.data == b.data && a.vclock == b.vclock
    ensures ApplyAll(a, ts).data == ApplyAll(b, ts).data
    ensures ApplyAll(a, ts).vclock == ApplyAll(b, ts).vclock
    decreases |ts|
  {
    if |ts| > 0 {
      ApplyAllProjection(ApplyTransaction(a, ts[0]), ApplyTransaction(b, ts[0]), ts[1..]);
    }
  }

  lemma {:induction false} DecodedLines(ts: seq<Transaction>)
    ensures Decoded(Lines(ts)) == ts
    decreases |ts|
  {
    if |ts| > 0 {
      assert Lines(ts)[1..] == Lines(ts[1..]);
      DecodedLines(ts[1..]);
    }
  }

  /** Part-way through indexing a snapshot: `done` holds the keys indexed so
      far, with the snapshot's features, and `order` lists the rest once each. */
  predicate Loading(data: map<string, Feature>, done: map<string, Feature>, order: seq<string>)
  {
    && (forall k | k in done :: k in data && done[k] == data[k])
    && (forall i, j | 0 <= i < j < |order| :: order[i] != order[j])
    && (forall i | 0 <= i < |order| :: order[i] in data && order[i] !in done)
    && (forall k | k in data :: k in done || k in order)
  }

  lemma LoadingStep(data: map<string, Feature>, done: map<string, Feature>, order: seq<string>)
    requires Loading(data, done, order) && |order| > 0
    ensures Loading(data, done[order[0] := data[order[0]]], order[1..])
    ensures order[0] in data && order[0] !in done
  {
    var k := order[0];
    assert order == [k] + order[1..];
    forall i | 0 <= i < |order[1..]|
      ensures order[1..][i] != k
    {
      assert order[1..][i] == order[i + 1];
    }
  }

  lemma LoadingDone(data: map<string, Feature>, done: map<string, Feature>)
    requires Loading(data, done, [])
    ensures done == data
  {
  }

  /** The indexing loop of checkpoint loading, started from a consistent index
      of the keys already loaded, ends with a consistent index of all keys. */
  lemma {:induction false} IndexAllConsistent(data: map<string, Feature>, done: map<string, Feature>, idx: Index, order: seq<string>)
    requires WellKeyed(data)
    requires Consistent(done, idx)
    requires Loading(data, done, order)
    ensures Consistent(data, IndexAll(idx, data, order))
    decreases |order|
  {
    if |order| == 0 {
      LoadingDone(data, done);
    } else {
      var k := order[0];
      var next := SpatialIndex.Insert(idx, EntryFor(data[k]));
      LoadingStep(data, done, order);
      InsertFreshKeepsConsistent(done, idx, data[k]);
      IndexAllConsistent(data, done[k := data[k]], next, order[1..]);
    }
  }

  /** A successful checkpoint followed by a restart reproduces the table and
      the clock; the index holds exactly one entry per feature when the table is
      keyed by feature id; the counter restarts at zero. */
  lemma RecoverAfterCheckpoint(s: Engine, order: seq<string>)
    requires Enumerates(order, s.data.Keys)
    ensures var disk := Checkpoint(s, Succeeds).engine.disk;
      var r := Recover(s.name, s.leader, disk, order);
      && disk.log == []
      && r.data == s.data && r.vclock == s.vclock && r.lsn == 0
      && (WellKeyed(s.data) ==> Consistent(r.data, r.index))
  {
    var disk := Checkpoint(s, Succeeds).engine.disk;
    var loaded := LoadCheckpoint(Fresh(s.name, s.leader, disk), order);
    assert Decoded(disk.log) == [];
    if WellKeyed(s.data) {
      EmptyIsConsistent();
      IndexAllConsistent(s.data, map[], Empty, order);
    }
  }

  /** Recovery with no checkpoint applies the whole log to an empty engine. */
  lemma RecoverFromLogOnly(name: string, leader: bool, ts: seq<Transaction>)
    ensures Recover(name, leader, Disk(Lines(ts), Missing), []) == ApplyAll(Fresh(name, leader, Disk(Lines(ts), Missing)), ts)
  {
    DecodedLines(ts);
  }

  /** Recovery from a snapshot and a log applies the log to the snapshot's table and clock. */
  lemma RecoverFromSnapshot(name: string, leader: bool, snap: Snapshot, ts: seq<Transaction>, order: seq<string>, e: Engine)
    requires Enumerates(order, snap.data.Keys)
    requires e.data == snap.data && e.vclock == snap.vclock
    ensures var r := Recover(name, leader, Disk(Lines(ts), Stored(snap)), order);
      r.data == ApplyAll(e, ts).data && r.vclock == ApplyAll(e, ts).vclock
  {
    DecodedLines(ts);
    var loaded := LoadCheckpoint(Fresh(name, leader, Disk(Lines(ts), Stored(snap))), order);
    ApplyAllProjection(loaded, e, ts);
  }

  /** Checkpointing part-way through a log and resuming from the checkpoint
      reconstructs the same table and clock as replaying the whole log. */
  lemma CheckpointMidwayMatchesFullReplay(name: string, leader: bool, p: seq<Transaction>, q: seq<Transaction>, order: seq<string>)
    requires var mid := Recover(name, leader, Disk(Lines(p), Missing), []);
      Enumerates(order, mid.data.Keys)
    ensures var mid := Recover(name, leader, Disk(Lines(p), Missing), []);
      var full := Recover(name, leader, Disk(Lines(p + q), Missing), []);
      var resumed := Recover(name, leader, Disk(Lines(q), Stored(Snapshot(mid.data, mid.vclock))), order);
      resumed.data == full.data && resumed.vclock == full.vclock
  {
    var midDisk := Disk(Lines(p), Missing);
    var fullDisk := Disk(Lines(p + q), Missing);
    var mid := Recover(name, leader, midDisk, []);
    RecoverFromLogOnly(name, leader, p);
    RecoverFromLogOnly(name, leader, p + q);
    var start := Fresh(name, leader, fullDisk);
    ApplyAllSplit(start, p, q);
    var afterP := ApplyAll(start, p);
    ApplyAllProjection(Fresh(name, leader, midDisk), start, p);
    assert afterP.data == mid.data && afterP.vclock == mid.vclock;
    RecoverFromSnapshot(name, leader, Snapshot(mid.data, mid.vclock), q, order, afterP);
  }
}

=== FILE: scenarios.dfy ===
/** Runs of the engine on small inputs: one or two commands, a restart, a
    replicated delivery, and what search answers afterwards. */
module Scenarios {
  import opened Geo
  import opened SpatialIndex
  import opened StorageEngine
  import opened Consistency
  import opened Recovery

  function PointFeature(id: string, x: int, y: int): Feature
  {
    Feature(StrId(id), Geometry(Point(x, y), []), map[])
  }

  const NoFiles := Disk([], Missing)
  const AllOk := Io(true, Succeeds)

  /** After one insert into a fresh leader, a query reports the feature
      exactly when it meets the feature's bounding box (the store's select
      test: a point at (1,1) and the query (0,0)-(2,2)). */
  lemma InsertedPointIsFound(a: Feature, q: Rect)
    requires a.id.StrId?
    ensures var s := HandleInsert(Fresh("leader", true, NoFiles), a, true).engine;
      HandleSearch(s, q.min, q.max).reply == Found(if Intersects(BBox(a.geometry), q) then [a] else [])
  {
    InsertedOnce(a);
    SearchOne(EntryFor(a), q);
  }

  /** Insert then replace on the leader: a query reports the new feature
      exactly when it meets the new bounding box, and never the old feature. */
  lemma ReplaceMovesPoint(a1: Feature, a9: Feature, q: Rect)
    requires a1.id.StrId? && a9.id == a1.id
    ensures var s1 := HandleInsert(Fresh("leader", true, NoFiles), a1, true).engine;
      var s2 := HandleReplace(s1, a9, true).engine;
      HandleSearch(s2, q.min, q.max).reply == Found(if Intersects(BBox(a9.geometry), q) then [a9] else [])
  {
    var s1 := HandleInsert(Fresh("leader", true, NoFiles), a1, true).engine;
    InsertedOnce(a1);
    ReplacedOnce(s1, a1, a9);
    SearchOne(EntryFor(a9), q);
  }

  /** Inserting the same feature twice on a leader indexes it twice, and a
      query that meets it reports it twice. */
  lemma InsertTwiceReportedTwice(a: Feature, q: Rect)
    requires a.id.StrId? && Intersects(BBox(a.geometry), q)
    ensures var s1 := HandleInsert(Fresh("leader", true, NoFiles), a, true).engine;
      var s2 := HandleInsert(s1, a, true).engine;
      HandleSearch(s2, q.min, q.max).reply == Found([a, a])
  {
    var s1 := HandleInsert(Fresh("leader", true, NoFiles), a, true).engine;
    InsertedOnce(a);
    InsertOverOne(s1, a);
    SearchTwice(EntryFor(a), q);
  }

  /** An insert on a leader whose index holds one entry appends a second one. */
  lemma InsertOverOne(s: Engine, a: Feature)
    requires s.leader && a.id.StrId? && s.index.entries == [EntryFor(a)]
    ensures HandleInsert(s, a, true).engine.index.entries == [EntryFor(a), EntryFor(a)]
  {
    assert HandleInsert(s, a, true).engine.index == SpatialIndex.Insert(s.index, EntryFor(a));
  }

  /** A query that meets an entry held twice reports its feature twice. */
  lemma SearchTwice(e: Entry, q: Rect)
    requires Intersects(e.rect, q)
    ensures Search(Index([e, e]), q) == [e.feature, e.feature]
  {
    assert [e, e][1..] == [e];
    assert [e][1..] == [];
    assert Hits([e], q) == [e];
    assert Hits([e, e], q) == [e] + [e];
    assert Features([e, e]) == [e.feature] + Features([e]);
  }

  /** A query over a one-entry index reports that entry's feature exactly when it meets its rectangle. */
  lemma SearchOne(e: Entry, q: Rect)
    ensures Search(Index([e]), q) == if Intersects(e.rect, q) then [e.feature] else []
  {
    assert [e][1..] == [];
  }

  /** The index after one insert into a fresh leader holds just that feature. */
  lemma InsertedOnce(a: Feature)
    requires a.id.StrId?
    ensures var s := HandleInsert(Fresh("leader", true, NoFiles), a, true).engine;
      s.data == map[a.id.s := a] && s.index.entries == [EntryFor(a)]
  {
  }

  /** Replacing the only stored feature leaves just the new one in the index. */
  lemma ReplacedOnce(s: Engine, a: Feature, b: Feature)
    requires s.leader && a.id.StrId? && b.id == a.id
    requires s.data == map[a.id.s := a] && s.index.entries == [EntryFor(a)]
    ensures HandleReplace(s, b, true).engine.index.entries == [EntryFor(b)]
  {
    var r := HandleReplace(s, b, true).engine;
    assert SpatialIndex.Delete(s.index, EntryFor(a)).entries == [];
  }

  /** An insert and a replace that moves the feature out of the query area,
      arriving at a follower by replication: the replicated replace does not
      remove the old entry, so the query still reports the old feature. */
  lemma ReplicatedReplaceKeepsOldPoint(a1: Feature, a9: Feature, q: Rect)
    requires a1.id == StrId("a") && a9.id == a1.id
    requires Intersects(BBox(a1.geometry), q) && !Intersects(BBox(a9.geometry), q)
    ensures var f0 := Fresh("follower", false, NoFiles);
      var f1 := ApplyTransaction(f0, Transaction(Insert, "leader", 2, a1));
      var f2 := ApplyTransaction(f1, Transaction(Replace, "leader", 3, a9));
      && f2.data == map["a" := a9]
      && HandleSearch(f2, q.min, q.max).reply == Found([a1])
  {
    var f0 := Fresh("follower", false, NoFiles);
    var t1 := Transaction(Insert, "leader", 2, a1);
    var t2 := Transaction(Replace, "leader", 3, a9);
    ReplicatedInsertIntoEmpty(f0, t1);
    var f1 := ApplyTransaction(f0, t1);
    ReplicatedStoreOverOne(f1, a1, t2);
    var f2 := ApplyTransaction(f1, t2);
    SearchFirstOfTwo(EntryFor(a1), EntryFor(a9), q);
  }

  /** A query that meets the first of two entries and not the second reports
      the first entry's feature only. */
  lemma SearchFirstOfTwo(e1: Entry, e2: Entry, q: Rect)
    requires Intersects(e1.rect, q) && !Intersects(e2.rect, q)
    ensures Search(Index([e1, e2]), q) == [e1.feature]
  {
    assert [e1, e2][1..] == [e2];
    assert [e2][1..] == [];
  }

  /** A replicated insert into an empty engine stores and indexes just its feature. */
  lemma ReplicatedInsertIntoEmpty(s: Engine, t: Transaction)
    requires s.data == map[] && s.index == Empty && s.vclock == map[]
    requires t.action == Insert && t.feature.id.StrId?
    ensures var r := ApplyTransaction(s, t);
      && r.data == map[t.feature.id.s := t.feature] && r.index.entries == [EntryFor(t.feature)]
      && r.vclock == map[t.name := t.lsn]
  {
  }

  /** A replicated insert or replace of the only stored id adds the new entry
      after the old one. */
  lemma ReplicatedStoreOverOne(s: Engine, a: Feature, t: Transaction)
    requires a.id.StrId? && t.feature.id == a.id && (t.action == Insert || t.action == Replace) && !Seen(s.vclock, t)
    requires s.data == map[a.id.s := a] && s.index.entries == [EntryFor(a)]
    ensures var r := ApplyTransaction(s, t);
      r.data == map[a.id.s := t.feature] && r.index.entries == [EntryFor(a), EntryFor(t.feature)]
  {
    var s1 := s.(vclock := s.vclock[t.name := t.lsn]);
    assert ApplyTransaction(s, t) == Store(s1, t.feature);
    assert Store(s1, t.feature).index.entries == s.index.entries + [EntryFor(t.feature)];
  }

  /** Insert, checkpoint, restart: the log is empty and the feature comes
      back from the checkpoint alone, found by exactly the queries that found
      it before. */
  lemma InsertCheckpointRestart(a: Feature, q: Rect)
    requires a.id.StrId?
    ensures var s1 := HandleInsert(Fresh("leader", true, NoFiles), a, true).engine;
      var s2 := Checkpoint(s1, Succeeds).engine;
      var r := Recover("leader", true, s2.disk, [a.id.s]);
      && s2.disk.log == []
      && HandleSearch(r, q.min, q.max).reply == Found(if Intersects(BBox(a.geometry), q) then [a] else [])
  {
    var s1 := HandleInsert(Fresh("leader", true, NoFiles), a, true).engine;
    InsertedOnce(a);
    var s2 := Checkpoint(s1, Succeeds).engine;
    assert s2.disk == Disk([], Stored(Snapshot(map[a.id.s := a], s1.vclock)));
    RestartFromOneFeature(a, s1.vclock);
    SearchOne(EntryFor(a), q);
  }

  /** A checkpoint whose log removal fails leaves the snapshot and the log side
      by side. The leader's own insert is in both. This leader has never
      replayed its own log, so its clock has no entry for itself, and local
      commands never add one: the snapshot's clock does not mark the insert as
      applied. So the restart applies it a second time: the index holds two
      entries for one stored feature, and the table and index disagree. */
  lemma CheckpointLeftLogReappliesInsert(a: Feature)
    requires a.id.StrId?
    ensures var s1 := HandleInsert(Fresh("leader", true, NoFiles), a, true).engine;
      var s2 := Checkpoint(s1, RemoveFails).engine;
      var r := Recover("leader", true, s2.disk, [a.id.s]);
      && s2.disk == Disk([Line(Transaction(Insert, "leader", 2, a))], Stored(Snapshot(map[a.id.s := a], map[])))
      && r.data == map[a.id.s := a]
      && r.index.entries == [EntryFor(a), EntryFor(a)]
      && !Consistent(r.data, r.index)
  {
    InsertThenCheckpointKeepsLog(a);
    var disk := Disk([Line(Transaction(Insert, "leader", 2, a))], Stored(Snapshot(map[a.id.s := a], map[])));
    RecoverSnapshotAndSameInsert(a, disk);
  }

  /** Insert on a fresh leader, then a checkpoint whose log removal fails. */
  lemma InsertThenCheckpointKeepsLog(a: Feature)
    requires a.id.StrId?
    ensures var s1 := HandleInsert(Fresh("leader", true, NoFiles), a, true).engine;
      Checkpoint(s1, RemoveFails).engine.disk
      == Disk([Line(Transaction(Insert, "leader", 2, a))], Stored(Snapshot(map[a.id.s := a], map[])))
  {
    InsertedOnce(a);
  }

  /** Recovery from a one-feature snapshot with an empty clock and a log that
      inserts the same feature again. */
  lemma RecoverSnapshotAndSameInsert(a: Feature, disk: Disk)
    requires a.id.StrId?
    requires disk == Disk([Line(Transaction(Insert, "leader", 2, a))], Stored(Snapshot(map[a.id.s := a], map[])))
    ensures var r := Recover("leader", true, disk, [a.id.s]);
      && r.data == map[a.id.s := a]
      && r.index.entries == [EntryFor(a), EntryFor(a)]
      && !Consistent(r.data, r.index)
  {
    var t := Transaction(Insert, "leader", 2, a);
    var loaded := LoadCheckpoint(Fresh("leader", true, disk), [a.id.s]);
    LoadedOneFeature(a, disk);
    assert Decoded(disk.log) == [t];
    ApplyOne(loaded, t);
    ReplicatedStoreOverOne(loaded, a, t);
    var r := ApplyTransaction(loaded, t);
    assert multiset(r.index.entries)[EntryFor(a)] == 2;
  }

  /** Loading a snapshot of one feature indexes just that feature. */
  lemma LoadedOneFeature(a: Feature, disk: Disk)
    requires a.id.StrId? && disk.checkpoint.Stored? && disk.checkpoint.snapshot.data == map[a.id.s := a]
    ensures var loaded := LoadCheckpoint(Fresh("leader", true, disk), [a.id.s]);
      loaded.data == map[a.id.s := a] && loaded.index.entries == [EntryFor(a)]
      && loaded.vclock == disk.checkpoint.snapshot.vclock
  {
    var k := a.id.s;
    assert [k][1..] == [];
    var data := map[k := a];
    var s := Fresh("leader", true, disk);
    assert LoadCheckpoint(s, [k]).index == IndexAll(s.index, data, [k]);
    assert IndexAll(Empty, data, [k]) == IndexAll(SpatialIndex.Insert(Empty, EntryFor(a)), data, []);
  }

  /** Restarting from a snapshot of one feature and an empty log indexes just that feature. */
  lemma RestartFromOneFeature(a: Feature, vclock: map<string, nat>)
    requires a.id.StrId?
    ensures var disk := Disk([], Stored(Snapshot(map[a.id.s := a], vclock)));
      Recover("leader", true, disk, [a.id.s]).index.entries == [EntryFor(a)]
  {
    var disk := Disk([], Stored(Snapshot(map[a.id.s := a], vclock)));
    assert Decoded(disk.log) == [];
    LoadedOneFeature(a, disk);
  }

  /** Insert, crash without a checkpoint, restart: the log holds the insert
      with LSN 2, and replaying it brings the feature back. */
  lemma InsertCrashRestart(a: Feature, q: Rect)
    requires a.id.StrId?
    ensures var s1 := HandleInsert(Fresh("leader", true, NoFiles), a, true).engine;
      var r := Recover("leader", true, s1.disk, []);
      && s1.disk.log == [Line(Transaction(Insert, "leader", 2, a))]
      && HandleSearch(r, q.min, q.max).reply == Found(if Intersects(BBox(a.geometry), q) then [a] else [])
  {
    var t := Transaction(Insert, "leader", 2, a);
    var s1 := HandleInsert(Fresh("leader", true, NoFiles), a, true).engine;
    assert s1.disk.log == [Line(t)];
    assert Decoded(s1.disk.log) == [t];
    var start := Fresh("leader", true, s1.disk);
    ApplyOne(start, t);
    ReplicatedInsertIntoEmpty(start, t);
    SearchOne(EntryFor(a), q);
  }

  lemma ApplyOne(s: Engine, t: Transaction)
    ensures ApplyAll(s, [t]) == ApplyTransaction(s, t)
  {
    assert [t][1..] == [];
  }

  lemma ApplyTwo(s: Engine, t1: Transaction, t2: Transaction)
    ensures ApplyAll(s, [t1, t2]) == ApplyTransaction(ApplyTransaction(s, t1), t2)
  {
    assert [t1, t2][1..] == [t2];
    ApplyOne(ApplyTransaction(s, t1), t2);
  }

  lemma RecoverOneLine(name: string, leader: bool, t: Transaction)
    ensures var disk := Disk([Line(t)], Missing);
      Recover(name, leader, disk, []) == ApplyTransaction(Fresh(name, leader, disk), t)
  {
    assert Lines([t]) == [Line(t)];
    RecoverFromLogOnly(name, leader, [t]);
    ApplyOne(Fresh(name, leader, Disk([Line(t)], Missing)), t);
  }

  lemma RecoverTwoLines(name: string, leader: bool, t1: Transaction, t2: Transaction)
    ensures var disk := Disk([Line(t1), Line(t2)], Missing);
      Recover(name, leader, disk, []) == ApplyTransaction(ApplyTransaction(Fresh(name, leader, disk), t1), t2)
  {
    assert Lines([t1, t2]) == [Line(t1), Line(t2)];
    RecoverFromLogOnly(name, leader, [t1, t2]);
    ApplyTwo(Fresh(name, leader, Disk([Line(t1), Line(t2)], Missing)), t1, t2);
  }

  lemma RunOne(s: Engine, c: Command, io: Io)
    ensures RunCommands(s, [(c, io)]) == HandleCommand(s, c, io).engine
  {
    assert [(c, io)][1..] == [];
  }

  /** A transaction delivered twice is applied once: one copy in the table,
      one entry in the index, and the clock at its LSN. */
  lemma DuplicateDeliveryAppliedOnce()
    ensures var a := PointFeature("a", 1, 1);
      var t := Transaction(Insert, "leader", 5, a);
      var f := ApplyTransaction(ApplyTransaction(Fresh("follower", false, NoFiles), t), t);
      && f.data == map["a" := a]
      && f.index.entries == [EntryFor(a)]
      && f.vclock == map["leader" := 5]
  {
  }

  /** A delete of an id that is not stored answers NotFound and leaves table
      and index alone, but the delete has already been logged. */
  lemma DeleteOfMissingIdIsLogged()
    ensures var b := PointFeature("b", 3, 3);
      var s := Fresh("leader", true, NoFiles);
      var r := HandleDelete(s, b, true);
      && r.reply == Failed(NotFound)
      && r.engine.data == s.data && r.engine.index == s.index
      && r.engine.disk.log == [Line(Transaction(Delete, "leader", 1, b))]
  {
  }

  /** Because recovery does not restore the sequence counter, a leader that
      restarts after replaying its own log issues LSNs it has used before; the
      next replay then skips the newer transaction as already seen. Here the
      insert of "b" in the second life is lost at the third start, whatever
      the geometry of the two features. */
  lemma RestartReusesLsnAndLosesInsert(a: Feature, b: Feature)
    requires a.id == StrId("a") && b.id == StrId("b")
    ensures var disk1 := Session("leader", true, NoFiles, [], [(InsertCmd(a), AllOk)], None);
      && disk1 == Disk([Line(Transaction(Insert, "leader", 2, a))], Missing)
      && var disk2 := Session("leader", true, disk1, [], [(InsertCmd(b), AllOk)], None);
      && disk2 == Disk([Line(Transaction(Insert, "leader", 2, a)), Line(Transaction(Insert, "leader", 2, b))], Missing)
      && var r := Recover("leader", true, disk2, []);
      && "a" in r.data && "b" !in r.data
  {
    var ta := Transaction(Insert, "leader", 2, a);
    var tb := Transaction(Insert, "leader", 2, b);
    var disk1 := Session("leader", true, NoFiles, [], [(InsertCmd(a), AllOk)], None);
    FirstLife(a);
    assert disk1 == Disk([Line(ta)], Missing);
    var disk2 := Session("leader", true, disk1, [], [(InsertCmd(b), AllOk)], None);
    SecondLife(ta, b);
    assert disk2 == Disk([Line(ta), Line(tb)], Missing);
    ThirdStart(ta, tb);
  }

  /** First life: empty disk, one insert, crash. */
  lemma FirstLife(a: Feature)
    ensures Session("leader", true, NoFiles, [], [(InsertCmd(a), AllOk)], None)
      == Disk([Line(Transaction(Insert, "leader", 2, a))], Missing)
  {
    var life1 := Recover("leader", true, NoFiles, []);
    assert Decoded(NoFiles.log) == [];
    assert life1 == Fresh("leader", true, NoFiles);
    RunOne(life1, InsertCmd(a), AllOk);
  }

  /** Second life: replaying the first insert puts the leader's own LSN 2 into
      its clock, the counter restarts at 0, and the next insert takes LSN 2 again. */
  lemma SecondLife(ta: Transaction, b: Feature)
    requires ta.name == "leader" && ta.lsn == 2 && ta.action == Insert
    ensures var disk1 := Disk([Line(ta)], Missing);
      Session("leader", true, disk1, [], [(InsertCmd(b), AllOk)], None)
      == Disk([Line(ta), Line(Transaction(Insert, "leader", 2, b))], Missing)
  {
    var disk1 := Disk([Line(ta)], Missing);
    RecoverOneLine("leader", true, ta);
    var life2 := Recover("leader", true, disk1, []);
    assert life2.lsn == 0 && life2.leader;
    RunOne(life2, InsertCmd(b), AllOk);
  }

  /** Third start: the second transaction carries an LSN already in the clock and is skipped. */
  lemma ThirdStart(ta: Transaction, tb: Transaction)
    requires ta.name == tb.name && ta.lsn == tb.lsn && ta.action == Insert && tb.action == Insert
    requires ta.feature.id == StrId("a") && tb.feature.id == StrId("b")
    ensures var r := Recover("leader", true, Disk([Line(ta), Line(tb)], Missing), []);
      "a" in r.data && "b" !in r.data
  {
    var disk2 := Disk([Line(ta), Line(tb)], Missing);
    var start3 := Fresh("leader", true, disk2);
    RecoverTwoLines("leader", true, ta, tb);
    assert Seen(ApplyTransaction(start3, ta).vclock, tb);
  }
}

=== FILE: spatial_index.dfy ===
/** The engine's R-tree, seen through what the engine relies on: a bag of
    (rectangle, feature) entries with insert, delete-one-exact-match and a
    rectangle-intersection search. The entries are kept in a sequence so the
    search has a definite answer order; every promise below is about the bag
    `multiset(entries)`, since the tree's internal order is unspecified. */
module SpatialIndex {
  import opened Geo

  datatype Entry = Entry(rect: Rect, feature: Feature)

  datatype Index = Index(entries: seq<Entry>)

  const Empty := Index([])

  /** The entry under which the engine indexes a feature: its bounding box,
      computed from the feature's current geometry. */
  function EntryFor(f: Feature): Entry
  {
    Entry(BBox(f.geometry), f)
  }

  /** Adds one entry; an equal entry already present is kept, so the bag can
      hold duplicates. */
  function Insert(idx: Index, e: Entry): (r: Index)
    ensures multiset(r.entries) == multiset(idx.entries) + multiset{e}
  {
    Index(idx.entries + [e])
  }

  function RemoveFirst(s: seq<Entry>, e: Entry): (r: seq<Entry>)
    ensures multiset(r) == multiset(s) - multiset{e}
    ensures e in s ==> |r| == |s| - 1
    ensures e !in s ==> r == s
  {
    if |s| == 0 then s
    else
      assert s == [s[0]] + s[1..];
      if s[0] == e then s[1..] else [s[0]] + RemoveFirst(s[1..], e)
  }

  /** Removes one occurrence of an entry equal in both rectangle and feature,
      and does nothing when there is none. */
  function Delete(idx: Index, e: Entry): (r: Index)
    ensures multiset(r.entries) == multiset(idx.entries) - multiset{e}
    ensures e !in idx.entries ==> r == idx
  {
    Index(RemoveFirst(idx.entries, e))
  }

  /** The entries whose rectangle intersects the query rectangle `q`, in index order. */
  function Hits(s: seq<Entry>, q: Rect): (r: seq<Entry>)
    ensures forall e :: multiset(r)[e] == (if Intersects(e.rect, q) then multiset(s)[e] else 0)
  {
    if |s| == 0 then []
    else
      assert s == [s[0]] + s[1..];
      var rest := Hits(s[1..], q);
      if Intersects(s[0].rect, q) then [s[0]] + rest else rest
  }

  function Features(s: seq<Entry>): (r: seq<Feature>)
    ensures |r| == |s|
    ensures forall i | 0 <= i < |s| :: r[i] == s[i].feature
  {
    if |s| == 0 then [] else [s[0].feature] + Features(s[1..])
  }

  /** The number of entries of `s` that carry feature `f` and whose
      rectangle intersects `q`. */
  function HitCount(s: seq<Entry>, q: Rect, f: Feature): nat
  {
    if |s| == 0 then 0
    else (if s[0].feature == f && Intersects(s[0].rect, q) then 1 else 0) + HitCount(s[1..], q, f)
  }

  /** The features of all entries whose rectangle intersects `q`, duplicates
      included: a feature is reported once per matching entry. The order of
      the answer is the tree's and is not promised. */
  function Search(idx: Index, q: Rect): (r: seq<Feature>)
    ensures forall f :: f in r <==> exists e :: e in idx.entries && e.feature == f && Intersects(e.rect, q)
    ensures forall f :: multiset(r)[f] == HitCount(idx.entries, q, f)
  {
    var hits := Hits(idx.entries, q);
    HitsMembership(idx.entries, q);
    FeaturesMembership(hits);
    SearchCount(idx.entries, q);
    Features(hits)
  }

  lemma {:induction false} SearchCount(s: seq<Entry>, q: Rect)
    ensures forall f :: multiset(Features(Hits(s, q)))[f] == HitCount(s, q, f)
    decreases |s|
  {
    if |s| > 0 {
      SearchCount(s[1..], q);
      var rest := Hits(s[1..], q);
      if Intersects(s[0].rect, q) {
        var hits := [s[0]] + rest;
        assert Hits(s, q) == hits;
        assert hits[1..] == rest;
        assert Features(hits) == [s[0].feature] + Features(rest);
      } else {
        assert Hits(s, q) == rest;
      }
    }
  }

  lemma HitsMembership(s: seq<Entry>, q: Rect)
    ensures forall e :: e in Hits(s, q) <==> e in s && Intersects(e.rect, q)
  {
    var hits := Hits(s, q);
    forall e ensures e in hits <==> e in s && Intersects(e.rect, q) {
      assert e in hits <==> multiset(hits)[e] > 0;
      assert e in s <==> multiset(s)[e] > 0;
    }
  }

  lemma FeaturesMembership(s: seq<Entry>)
    ensures forall f :: f in Features(s) <==> exists e :: e in s && e.feature == f
  {
    var r := Features(s);
    forall f | f in r ensures exists e :: e in s && e.feature == f {
      var i :| 0 <= i < |r| && r[i] == f;
      assert s[i] in s;
    }
    forall e | e in s ensures e.feature in r {
      var i :| 0 <= i < |s| && s[i] == e;
      assert r[i] == e.feature;
    }
  }
}

=== FILE: storage_engine.dfy ===
/** The single-writer storage engine of a replicated geospatial store, with the
    command loop reduced to a sequential state machine: every command and every
    replicated transaction is a pure function from engine state to engine state.

    Inputs the Go store gets from the environment become parameters: whether an
    append to the write-ahead log succeeds (`appendOk`) and how a checkpoint
    write ends (`CheckpointIo`). */
module StorageEngine {
  import opened Geo
  import opened SpatialIndex

  /** The action named in a transaction. `Other` stands for any name except
      "insert", "replace" and "delete", which have constructors of their own. */
  datatype Action = Insert | Replace | Delete | Other(name: string)

  /** One committed mutation: the unit written to the log and sent to replicas.
      `name` is the originating node and `lsn` its sequence number there. */
  datatype Transaction = Transaction(action: Action, name: string, lsn: nat, feature: Feature)

  /** A line of the log file: a decodable transaction or a line that fails to
      decode (a torn or corrupted write). */
  datatype LogLine = Line(txn: Transaction) | Garbled

  datatype Snapshot = Snapshot(data: map<string, Feature>, vclock: map<string, nat>)

  /** The checkpoint file: absent, present but not decodable, or a snapshot. */
  datatype CheckpointFile = Missing | Damaged | Stored(snapshot: Snapshot)

  datatype Disk = Disk(log: seq<LogLine>, checkpoint: CheckpointFile)

  /** The engine state. `data` is the feature table, `index` the spatial index,
      `lsn` the local sequence counter, `vclock` the highest sequence number
      applied per origin node, and `disk` the log and checkpoint files. */
  datatype Engine = Engine(
    data: map<string, Feature>,
    index: Index,
    lsn: nat,
    name: string,
    vclock: map<string, nat>,
    leader: bool,
    disk: Disk)

  datatype Error = NotLeader | LogWriteFailed | IdNotString | NotFound | CheckpointFailed | UnknownCommand(action: string)

  /** What the command loop sends back: an acknowledgement, an error, or the
      result of a search. */
  datatype Reply = Ok | Failed(error: Error) | Found(features: seq<Feature>)

  datatype Step = Step(engine: Engine, reply: Reply)

  /** How the three file operations of a checkpoint end. Creating the file
      truncates it, so an encoding failure leaves a file that cannot be read
      back; a failure to remove the log leaves the snapshot written. */
  datatype CheckpointIo = CreateFails | EncodeFails | RemoveFails | Succeeds

  /** A command on the engine's queue. `UnknownCmd` stands for any action name
      other than the five the dispatch recognises ("insert", "replace",
      "delete", "checkpoint", "search"). */
  datatype Command =
    | InsertCmd(feature: Feature)
    | ReplaceCmd(feature: Feature)
    | DeleteCmd(feature: Feature)
    | CheckpointCmd
    | SearchCmd(min: Point, max: Point)
    | UnknownCmd(action: string)

  /** The environment's answer to the file operations one command performs. */
  datatype Io = Io(appendOk: bool, checkpoint: CheckpointIo)

  /** An engine as the constructor creates it, before recovery: nothing is
      stored or indexed, the counter is zero and no transaction has been seen. */
  function Fresh(name: string, leader: bool, disk: Disk): (r: Engine)
    ensures r.data == map[] && r.index.entries == [] && r.lsn == 0
    ensures forall t: Transaction :: !Seen(r.vclock, t)
    ensures r.name == name && r.leader == leader && r.disk == disk
  {
    Engine(map[], Empty, 0, name, map[], leader, disk)
  }

  /** A transaction is already applied when its origin's clock entry is at least its LSN. */
  predicate Seen(vclock: map<string, nat>, t: Transaction)
  {
    t.name in vclock && t.lsn <= vclock[t.name]
  }

  /** The parts of the engine that only checkpoint and the local handlers touch. */
  predicate SameNode(a: Engine, b: Engine)
  {
    a.lsn == b.lsn && a.name == b.name && a.leader == b.leader && a.disk == b.disk
  }

  /** The idempotent apply rule shared by replication receipt and log replay.
      A transaction already covered by the vector clock is ignored; otherwise
      the clock entry of its origin is set to its LSN and then its action is
      carried out. Insert and replace both store and index the feature without
      removing any earlier entry; delete removes the stored feature's entry. */
  function ApplyTransaction(s: Engine, t: Transaction): (r: Engine)
    ensures SameNode(r, s)
    ensures Seen(s.vclock, t) ==> r == s
    ensures !Seen(s.vclock, t) ==> r.vclock == s.vclock[t.name := t.lsn]
    ensures Seen(r.vclock, t)
    ensures !Seen(s.vclock, t) && !Effective(s, t) ==> r == s.(vclock := s.vclock[t.name := t.lsn])
    ensures !Seen(s.vclock, t) && Effective(s, t) && !t.action.Delete? ==>
      && r.data == s.data[t.feature.id.s := t.feature]
      && multiset(r.index.entries) == multiset(s.index.entries) + multiset{EntryFor(t.feature)}
    ensures !Seen(s.vclock, t) && Effective(s, t) && t.action.Delete? ==>
      && r.data == s.data - {t.feature.id.s}
      && multiset(r.index.entries) == multiset(s.index.entries) - multiset{EntryFor(s.data[t.feature.id.s])}
  {
    if Seen(s.vclock, t) then s
    else
      var s1 := s.(vclock := s.vclock[t.name := t.lsn]);
      match t.action
      case Insert => Store(s1, t.feature)
      case Replace => Store(s1, t.feature)
      case Delete =>
        if t.feature.id.StrId? && t.feature.id.s in s1.data then Remove(s1, t.feature.id.s) else s1
      case Other(_) => s1
  }

  /** Whether an unseen transaction changes the table: an insert or replace
      with a string id, or a delete of a stored string id. */
  predicate Effective(s: Engine, t: Transaction)
  {
    match t.action
    case Insert => t.feature.id.StrId?
    case Replace => t.feature.id.StrId?
    case Delete => t.feature.id.StrId? && t.feature.id.s in s.data
    case Other(_) => false
  }

  /** Stores a feature under its string id and adds its index entry; a feature
      without a string id is ignored. */
  function Store(s: Engine, f: Feature): Engine
  {
    match f.id
    case StrId(k) => s.(data := s.data[k := f], index := SpatialIndex.Insert(s.index, EntryFor(f)))
    case _ => s
  }

  /** Removes the key and the entry of the feature stored under it. */
  function Remove(s: Engine, k: string): Engine
    requires k in s.data
  {
    s.(index := SpatialIndex.Delete(s.index, EntryFor(s.data[k])), data := s.data - {k})
  }

  /** Appends one transaction as a new last line of the log; nothing else changes. */
  function AppendLog(s: Engine, t: Transaction): (r: Engine)
    ensures |r.disk.log| == |s.disk.log| + 1
    ensures r.disk.log[..|s.disk.log|] == s.disk.log && r.disk.log[|s.disk.log|] == Line(t)
    ensures r.(disk := s.disk) == s && r.disk.checkpoint == s.disk.checkpoint
  {
    s.(disk := s.disk.(log := s.disk.log + [Line(t)]))
  }

  /** Insert on the leader: the counter is advanced twice, the transaction is
      logged, and only then is the feature stored and indexed. An existing
      entry for the same id stays in the index. */
  function HandleInsert(s: Engine, f: Feature, appendOk: bool): (r: Step)
    ensures !s.leader ==> r == Step(s, Failed(NotLeader))
    ensures s.leader ==> r.engine.lsn == s.lsn + 2
    ensures s.leader ==>
      r.engine.disk.log == (if appendOk then s.disk.log + [Line(Transaction(Insert, s.name, s.lsn + 2, f))] else s.disk.log)
    ensures r.engine.vclock == s.vclock && r.engine.name == s.name && r.engine.leader == s.leader
    ensures r.engine.disk.checkpoint == s.disk.checkpoint
    ensures r.reply == Ok <==> s.leader && appendOk && f.id.StrId?
    ensures s.leader && !appendOk ==> r.reply == Failed(LogWriteFailed)
    ensures s.leader && appendOk && !f.id.StrId? ==> r.reply == Failed(IdNotString)
    ensures r.reply != Ok ==> r.engine.data == s.data && r.engine.index == s.index
    ensures r.reply == Ok ==> r.engine.data == s.data[f.id.s := f]
    ensures r.reply == Ok ==> multiset(r.engine.index.entries) == multiset(s.index.entries) + multiset{EntryFor(f)}
  {
    if !s.leader then Step(s, Failed(NotLeader))
    else
      var s1 := s.(lsn := s.lsn + 1);
      var s1 := s1.(lsn := s1.lsn + 1);
      var t := Transaction(Insert, s1.name, s1.lsn, f);
      if !appendOk then Step(s1, Failed(LogWriteFailed))
      else
        var s2 := AppendLog(s1, t);
        if !f.id.StrId? then Step(s2, Failed(IdNotString))
        else Step(Store(s2, f), Ok)
  }

  /** Replace on the leader: one counter step, the log append, then the entry of
      the feature currently stored under the id (if any) is deleted and the new
      feature is stored and indexed. */
  function HandleReplace(s: Engine, f: Feature, appendOk: bool): (r: Step)
    ensures !s.leader ==> r == Step(s, Failed(NotLeader))
    ensures s.leader ==> r.engine.lsn == s.lsn + 1
    ensures s.leader ==>
      r.engine.disk.log == (if appendOk then s.disk.log + [Line(Transaction(Replace, s.name, s.lsn + 1, f))] else s.disk.log)
    ensures r.engine.vclock == s.vclock && r.engine.name == s.name && r.engine.leader == s.leader
    ensures r.engine.disk.checkpoint == s.disk.checkpoint
    ensures r.reply == Ok <==> s.leader && appendOk && f.id.StrId?
    ensures s.leader && !appendOk ==> r.reply == Failed(LogWriteFailed)
    ensures s.leader && appendOk && !f.id.StrId? ==> r.reply == Failed(IdNotString)
    ensures r.reply != Ok ==> r.engine.data == s.data && r.engine.index == s.index
    ensures r.reply == Ok ==> r.engine.data == s.data[f.id.s := f]
    ensures r.reply == Ok && f.id.s in s.data ==>
      multiset(r.engine.index.entries) == multiset(s.index.entries) - multiset{EntryFor(s.data[f.id.s])} + multiset{EntryFor(f)}
    ensures r.reply == Ok && f.id.s !in s.data ==>
      multiset(r.engine.index.entries) == multiset(s.index.entries) + multiset{EntryFor(f)}
  {
    if !s.leader then Step(s, Failed(NotLeader))
    else
      var s1 := s.(lsn := s.lsn + 1);
      var t := Transaction(Replace, s1.name, s1.lsn, f);
      if !appendOk then Step(s1, Failed(LogWriteFailed))
      else
        var s2 := AppendLog(s1, t);
        match f.id
        case StrId(k) =>
          var s3 := if k in s2.data then s2.(index := SpatialIndex.Delete(s2.index, EntryFor(s2.data[k]))) else s2;
          Step(Store(s3, f), Ok)
        case _ => Step(s2, Failed(IdNotString))
  }

  /** Delete on the leader: one counter step and the log append happen before
      the id is even looked up, so a delete of a missing id is logged and then
      answered with NotFound. */
  function HandleDelete(s: Engine, f: Feature, appendOk: bool): (r: Step)
    ensures !s.leader ==> r == Step(s, Failed(NotLeader))
    ensures s.leader ==> r.engine.lsn == s.lsn + 1
    ensures s.leader ==>
      r.engine.disk.log == (if appendOk then s.disk.log + [Line(Transaction(Delete, s.name, s.lsn + 1, f))] else s.disk.log)
    ensures r.engine.vclock == s.vclock && r.engine.name == s.name && r.engine.leader == s.leader
    ensures r.engine.disk.checkpoint == s.disk.checkpoint
    ensures r.reply == Ok <==> s.leader && appendOk && f.id.StrId? && f.id.s in s.data
    ensures s.leader && !appendOk ==> r.reply == Failed(LogWriteFailed)
    ensures s.leader && appendOk && !f.id.StrId? ==> r.reply == Failed(IdNotString)
    ensures s.leader && appendOk && f.id.StrId? && f.id.s !in s.data ==> r.reply == Failed(NotFound)
    ensures r.reply != Ok ==> r.engine.data == s.data && r.engine.index == s.index
    ensures r.reply == Ok ==> r.engine.data == s.data - {f.id.s}
    ensures r.reply == Ok ==>
      multiset(r.engine.index.entries) == multiset(s.index.entries) - multiset{EntryFor(s.data[f.id.s])}
  {
    if !s.leader then Step(s, Failed(NotLeader))
    else
      var s1 := s.(lsn := s.lsn + 1);
      var t := Transaction(Delete, s1.name, s1.lsn, f);
      if !appendOk then Step(s1, Failed(LogWriteFailed))
      else
        var s2 := AppendLog(s1, t);
        match f.id
        case StrId(k) =>
          if k !in s2.data then Step(s2, Failed(NotFound)) else Step(Remove(s2, k), Ok)
        case _ => Step(s2, Failed(IdNotString))
  }

  /** Range query: the features of every index entry whose rectangle meets the
      query rectangle. Allowed on any node; nothing changes. */
  function HandleSearch(s: Engine, min: Point, max: Point): (r: Step)
    ensures r.engine == s && r.reply.Found?
    ensures forall f :: f in r.reply.features <==>
      exists e :: e in s.index.entries && e.feature == f && Intersects(e.rect, Rect(min, max))
    ensures forall f :: multiset(r.reply.features)[f] == HitCount(s.index.entries, Rect(min, max), f)
  {
    Step(s, Found(Search(s.index, Rect(min, max))))
  }

  /** Writes `{data, vclock}` as the checkpoint and then removes the log; the
      log goes only once the snapshot has been written. */
  function Checkpoint(s: Engine, io: CheckpointIo): (r: Step)
    ensures r.engine.data == s.data && r.engine.index == s.index && r.engine.vclock == s.vclock
    ensures r.engine.lsn == s.lsn && r.engine.name == s.name && r.engine.leader == s.leader
    ensures r.reply == Ok <==> io == Succeeds
    ensures r.reply != Ok ==> r.reply == Failed(CheckpointFailed)
    ensures io == Succeeds || io == RemoveFails ==>
      r.engine.disk.checkpoint == Stored(Snapshot(s.data, s.vclock))
    ensures r.engine.disk.log == (if io == Succeeds then [] else s.disk.log)
    ensures io == CreateFails ==> r.engine == s
    ensures io == EncodeFails ==> r.engine.disk.checkpoint == Damaged
  {
    match io
    case CreateFails => Step(s, Failed(CheckpointFailed))
    case EncodeFails => Step(s.(disk := s.disk.(checkpoint := Damaged)), Failed(CheckpointFailed))
    case RemoveFails =>
      Step(s.(disk := s.disk.(checkpoint := Stored(Snapshot(s.data, s.vclock)))), Failed(CheckpointFailed))
    case Succeeds =>
      Step(s.(disk := Disk([], Stored(Snapshot(s.data, s.vclock)))), Ok)
  }

  /** The command loop's dispatch of one command. Broadcasting to replicas is
      not part of this model. */
  function HandleCommand(s: Engine, cmd: Command, io: Io): (r: Step)
    ensures r.engine.vclock == s.vclock
    ensures r.engine.name == s.name && r.engine.leader == s.leader
    ensures r.engine.lsn >= s.lsn
    ensures !s.leader ==> r.engine.data == s.data && r.engine.index == s.index && r.engine.lsn == s.lsn
    ensures !s.leader && cmd.CheckpointCmd? ==> r.engine.disk.log == (if io.checkpoint == Succeeds then [] else s.disk.log)
    ensures !s.leader && !cmd.CheckpointCmd? ==> r.engine == s
    ensures cmd.UnknownCmd? ==> r == Step(s, Failed(UnknownCommand(cmd.action)))
    ensures OnlyOwnAppended(s.disk.log, r.engine.disk.log, s.name)
  {
    match cmd
    case InsertCmd(f) => HandleInsert(s, f, io.appendOk)
    case ReplaceCmd(f) => HandleReplace(s, f, io.appendOk)
    case DeleteCmd(f) => HandleDelete(s, f, io.appendOk)
    case CheckpointCmd => Checkpoint(s, io.checkpoint)
    case SearchCmd(min, max) => HandleSearch(s, min, max)
    case UnknownCmd(a) => Step(s, Failed(UnknownCommand(a)))
  }

  /** Every line of `after` was already in `before` or is a transaction of the
      node `name`: a node's commands log only its own writes. */
  predicate OnlyOwnAppended(before: seq<LogLine>, after: seq<LogLine>, name: string)
  {
    forall l | l in after :: l in before || (l.Line? && l.txn.name == name)
  }

  /** The command loop over a queue of commands, each with its own I/O outcome.
      Local commands never touch the vector clock, the node's name or role,
      and they add to the log only transactions of this node. */
  function RunCommands(s: Engine, queue: seq<(Command, Io)>): (r: Engine)
    ensures r.vclock == s.vclock
    ensures r.name == s.name && r.leader == s.leader
    ensures OnlyOwnAppended(s.disk.log, r.disk.log, s.name)
    decreases |queue|
  {
    if |queue| == 0 then s
    else RunCommands(HandleCommand(s, queue[0].0, queue[0].1).engine, queue[1..])
  }
}
